=== FILE: README.md ===
# DashMaster core, modelled in Dafny

DashMaster is a companion service for a fleet of 25 ESP devices (`esp-000.local`
to `esp-024.local`), plus a development port mapper. This project models the
deterministic parts of the service as pure functions over immutable state and
proves properties about them:

- **Config-pack upload** (`upload.dfy`, `upload_properties.dfy`).
  - The checks run in a fixed order: layout, rules, the actuator-timer rule,
    then the optional schema, calibration, board map and theme.
  - The files are written under the device's storage directory.
  - One `config_history` row is appended.
  - The device's birth record is merged.
  - The response `hashes` are returned and the `config.uploaded` event is
    published.
  - JSON decoding, JSON-Schema validation, `json.dumps`, UTF-8 decoding and
    SHA-256 are uninterpreted functions held in a `Services` record.
- **Event fan-out** (`events.py` → `events.dfy`): bounded per-subscriber FIFO
  queues as a sequential state machine.
- **Device slots** (`devices.py` → `devices.dfy`): listing in slot order,
  claim, release, and the birth-record lookup.
- **Registry seeding** (`registry.py` → `registry.dfy`).
- **Storage layout and snapshot listing** (`storage.py` → `storage.dfy`).
  - The filesystem is a map from path to entry (`filesystem.dfy`).
  - `mkdir(parents=True, exist_ok=True)` and `write_bytes` are modelled with
    their failure cases.
- **Feature flags** (`flags.py` → `flags.dfy`), with the environment as a
  map (`os.dfy`).
- **Port mapper** (`portmap.py` → `portmap.dfy`):
  - the table of 50 local-port mappings;
  - the rewrite of the HTTP request line on the `/admin` ports. The request
    line follows section 3 of RFC 9112.

Support modules:

- `wrappers.dfy`: `Option`, `Result`, and `dict.get` on maps.
- `strings.dfy`: code-point ordering and `sorted`, ASCII `lower`, substring,
  decimal formatting.
- `seqs.dfy`: `split`/`join` on one separator, stable sort by key.
- `bytestrings.dfy`: bytes and UTF-8 encoding.
- `jsonvalues.dfy`: JSON values, Python `in` and iteration.
- `models.dfy`: the database row shapes.

How state is represented:

- Database rows are identified by hostname. The `devices` table keeps
  hostnames unique, so they stand in for the integer ids.
- A failing library call or a raised exception becomes an error value.
- The order of the upload's steps is kept exactly. In particular, files are
  written before the device lookup that can fail with 404.

Where the documentation and the code disagree, the model follows the code:

- The upload endpoint stores files under its own hard-coded root
  (`apps/companion/dashmaster/api/upload.py:20`), not under
  `DASHMASTER_STORAGE_ROOT`. `Upload.UploadConfigPack` therefore takes that
  root as a parameter, separate from `Storage.StorageRoot`.
- A rules document whose `actuators` entries are not objects is handled as
  Python handles it. `"ttl_s" in "xttl_s"` is a substring test, and `in` on a
  number raises, which gives a 500.

## Model

| member | source | states |
|---|---|---|
| Flags.EnvFlag | apps/companion/dashmaster/util/flags.py:41-45 | An unset variable gives the default. A set variable is on iff it equals one of `1`, `true`, `yes`, `on` ignoring ASCII case. A set but empty variable is off even when the default is on |
| Flags.FromEnv | apps/companion/dashmaster/util/flags.py:12-20 | Each flag is on iff its own variable spells a truthy word. With neither variable set, both flags are off |
| Flags.EnsurePinProvided | apps/companion/dashmaster/util/flags.py:32-38 | Never refuses while enforcement is off. With enforcement on, it refuses iff the PIN is missing or empty, with the fixed message |
| Flags.EnsureNtpReady | apps/companion/dashmaster/util/flags.py:22-30 | Lets every action through whether the gate is on or off |
| Flags.CaseInsensitive | apps/companion/dashmaster/util/flags.py:45 | `TRUE`, `On`, `YES` and `tRuE` turn a flag on |
| FileSystem.ParseRender | apps/companion/dashmaster/util/storage.py:13 | `Path(str(p))` gives back `p` for every well-formed path, so the default root survives the round trip through the environment default |
| FileSystem.MakeDirs | apps/companion/dashmaster/util/storage.py:18 | `mkdir(parents=True, exist_ok=True)` fails iff the path or an ancestor is a file. On success the path and its ancestors are directories, no existing entry changes, and nothing outside the path's ancestry is created |
| FileSystem.WriteFile | apps/companion/dashmaster/api/upload.py:206 | `write_bytes` succeeds iff the target is not a directory and its parent directory exists. It then replaces exactly that one entry |
| Storage.StorageRoot | apps/companion/dashmaster/util/storage.py:12-13 | The variable's path when it is set, otherwise the default root |
| Storage.DeviceStorageDir | apps/companion/dashmaster/util/storage.py:16-19 | The result is `root / hostname`, which is a directory afterwards. Every existing entry is kept. It fails iff a file is in the way |
| Storage.SnapshotsDir | apps/companion/dashmaster/util/storage.py:22-23 | The result is `root / hostname / history`. The device directory is created, but `history` itself is left as it was |
| Storage.ChildDirs | apps/companion/dashmaster/util/storage.py:30 | Exactly the subdirectories directly inside the directory, each once, in strictly ascending label order |
| Storage.IterSnapshots | apps/companion/dashmaster/util/storage.py:26-30 | Empty when `history` is missing. Otherwise its subdirectories, with files skipped, in ascending order. It fails when `history` is a file or the device directory cannot be made |
| Storage.LastIsLatest | apps/companion/dashmaster/util/storage.py:30 | The last listed snapshot has the greatest label of all snapshot directories |
| Registry.IterDevices | apps/companion/dashmaster/store/registry.py:44-45 | The registry's `devices` list, or nothing when the key is absent |
| Registry.NewDevice | apps/companion/dashmaster/store/registry.py:32-41 | A new row copies hostname, slot, both ports and topic, has status `unclaimed` and no profile |
| Registry.NewRows | apps/companion/dashmaster/store/registry.py:29-41 | One row per entry whose hostname was not present before the pass, and no other rows |
| Registry.NewRowsInOrder | apps/companion/dashmaster/store/registry.py:29-41 | The rows for `a + b` are the rows for `a` followed by the rows for `b`, so rows follow registry order |
| Registry.SeedDevices | apps/companion/dashmaster/store/registry.py:22-41 | Existing rows are unchanged and come first, followed by the new rows. A registry without `devices` adds nothing |
| Registry.NoRowsWhenAllPresent | apps/companion/dashmaster/store/registry.py:29-31 | Entries whose hostnames are all present add no row |
| Registry.SeedIdempotent | apps/companion/dashmaster/store/registry.py:25-31 | Seeding a second time from the same registry adds nothing |
| Registry.CommitSeed | apps/companion/dashmaster/scripts/seed_registry.py:10-12 | The commit after seeding keeps the staged rows exactly when hostnames and slots stay unique (apps/companion/dashmaster/store/models.py:29-30); otherwise it fails and no new row persists |
| Registry.DuplicatesRefused | apps/companion/dashmaster/store/registry.py:25-41 | The set of existing hostnames is computed once, so two entries with the same new hostname are both staged; the commit then breaks `UNIQUE(hostname)` and adds neither |
| Events.Offer | apps/companion/dashmaster/core/events.py:30-34 | `put_nowait` appends when there is room. When the queue is full it is left unchanged and the error is swallowed |
| Events.Publish | apps/companion/dashmaster/core/events.py:26-34 | The event goes to the tail of every queue with room. Full queues are unchanged. The subscriber set is the same, and validity is kept |
| Events.Subscribe | apps/companion/dashmaster/core/events.py:36-40 | Exactly one new, empty queue of the requested capacity is added under a fresh handle. The other queues are untouched |
| Events.Release | apps/companion/dashmaster/core/events.py:43-45 | Exactly that queue is removed, and the others keep their contents |
| Events.PublishToNobody | apps/companion/dashmaster/core/events.py:26-29 | Publishing with no subscribers changes nothing |
| Events.Delivered | apps/companion/dashmaster/core/events.py:26-34 | After a series of publishes, a queue holds its old items followed by as many of the events as fit, in publication order |
| Events.NoReplay | apps/companion/dashmaster/core/events.py:36-40 | A new subscriber receives exactly the events published after it joined, up to its capacity |
| Events.DefaultNoReplay | apps/companion/dashmaster/core/events.py:37-38 | With the default `max_queue_size` of 100, a new subscriber keeps the first 100 events published after it joined |
| Models.FindHostname | apps/companion/dashmaster/api/devices.py:110-114 | The first row with that hostname, or nothing iff no row has it |
| Devices.ListDevices | apps/companion/dashmaster/api/devices.py:28-45 | The result is a permutation of the rows, sorted by `slot_index` |
| Devices.FirstInSlotOrder | apps/companion/dashmaster/api/devices.py:54-61 | Nothing iff no device satisfies the test. Otherwise a device that satisfies it and has the smallest slot index among those that do |
| Devices.SelectTarget | apps/companion/dashmaster/api/devices.py:56-78 | A chosen device is unclaimed. It is the requested device, or, with nothing requested, the unclaimed device with the smallest slot. The 404 happens iff the requested hostname is absent. The "already claimed" 409 happens iff the requested device is not unclaimed. The "no slots" 409 happens iff nothing is requested and no device is unclaimed. With unique hostnames, a device is chosen iff one is claimable |
| Devices.Claim | apps/companion/dashmaster/api/devices.py:52-90 | 404 iff the requested hostname is absent. 409 iff the requested device is not unclaimed, or, with nothing requested, iff no device is unclaimed. With unique hostnames, the claim succeeds iff some device is claimable. On success only the target changes: status `claimed` and the request's profile. The response describes the target |
| Devices.ClaimTakesFirstListed | apps/companion/dashmaster/api/devices.py:54-77 | With unique slots, no requested hostname and at least one unclaimed device, the claim succeeds and takes the first unclaimed device in `list_devices` order |
| Devices.Release | apps/companion/dashmaster/api/devices.py:108-125 | 404 iff the hostname is unknown. Otherwise that device becomes unclaimed with no profile, whatever its status, and nothing else changes |
| Devices.ReleaseIdempotent | apps/companion/dashmaster/api/devices.py:120-121 | Releasing twice is the same as releasing once |
| Devices.LoadBirth | apps/companion/dashmaster/api/devices.py:136-150 | 404 iff the hostname is unknown. A device without a birth record gives an empty document, not an error |
| Upload.ReadJson | apps/companion/dashmaster/api/upload.py:23-40 | Accepted iff the bytes decode, parse and pass the kind's schema. Each failure maps to its own error: undecodable bytes give a 500, and unparsable JSON and a schema failure each give their own 400. The digest is SHA-256 of the raw bytes, not of the parsed document |
| Upload.ReadText | apps/companion/dashmaster/api/upload.py:43-53 | The theme is refused iff it is not UTF-8. Otherwise the result is the text and the digest of the raw bytes |
| Upload.CheckFrom | apps/companion/dashmaster/api/upload.py:78-83 | Passes iff every remaining entry has both `ttl_s` and `cooldown_s`. Otherwise it reports the first entry that lacks one, all earlier entries being complete |
| Upload.CheckActuators | apps/companion/dashmaster/api/upload.py:78-83 | A rules object without `actuators` passes. Whatever `actuators` iterates to is checked entry by entry. It passes iff every entry has both timers. The first entry lacking one is reported. The check raises iff `.get`, iteration or `in` raises before such an entry |
| Upload.ActuatorDetailMentionsTtl | apps/companion/dashmaster/api/upload.py:80-83 | The actuator refusal's detail mentions `ttl` for every index |
| Upload.ReadOptional | apps/companion/dashmaster/api/upload.py:85-98 | An optional kind that was not uploaded is skipped. One that was uploaded is read exactly as a mandatory one |
| Upload.ReadRequired | apps/companion/dashmaster/api/upload.py:75-83 | Succeeds iff layout, rules and the actuator check pass. An error comes from the first of them that fails, and names the index of the first incomplete actuator |
| Upload.ReadOptionals | apps/companion/dashmaster/api/upload.py:85-103 | Succeeds iff every uploaded optional kind reads. An error comes from the first failing one, in schema, calibration, board map, theme order |
| Upload.Digests | apps/companion/dashmaster/api/upload.py:75-103 | Layout and rules always have a digest. An optional kind has one exactly when it was read |
| Upload.Docs | apps/companion/dashmaster/api/upload.py:75-103 | The parsed documents: layout and rules always, each optional JSON kind exactly when it was read |
| Upload.ValidatePack | apps/companion/dashmaster/api/upload.py:75-103 | Accepted iff all seven checks pass. A refusal comes from the first failing check. Digests are kept exactly for the uploaded kinds, each the SHA-256 of that kind's raw bytes |
| Upload.DigestsShape | apps/companion/dashmaster/api/upload.py:75-103 | The collected digests are keyed by exactly the uploaded kinds, each the SHA-256 of that kind's raw bytes |
| Upload.DocsShape | apps/companion/dashmaster/api/upload.py:75-98 | The collected documents are keyed by exactly the uploaded JSON kinds, each what `_read_json` returned |
| Upload.DigestOf | apps/companion/dashmaster/api/upload.py:39 | A kind has a digest iff it was uploaded, and that digest is the SHA-256 of its raw bytes |
| Upload.DocOf | apps/companion/dashmaster/api/upload.py:75-98 | A JSON kind has a document iff it was uploaded, and it is what `_read_json` returned for it |
| Upload.FileNameInjective | apps/companion/dashmaster/api/upload.py:110-133 | Different kinds are stored under different file names |
| Upload.Files | apps/companion/dashmaster/api/upload.py:107-134 | The file names are distinct. Layout and rules always get a file. An optional JSON kind gets one only when its document is not null, and the theme when its text was read. Each file has its re-serialised content, and the list holds nothing else |
| Upload.NullDocumentNotWritten | apps/companion/dashmaster/api/upload.py:113-127 | An optional document that parsed to null gets no file, so an earlier file of that name is left as it was |
| Upload.WriteFilesSpec | apps/companion/dashmaster/api/upload.py:204-206 | Succeeds iff every target can be written. On success each file holds its content. No path outside the target names changes, even on failure |
| Upload.Store | apps/companion/dashmaster/api/upload.py:105-134 | A directory failure changes nothing. Existing entries survive. Whether or not a write fails, every path other than the upload's own files keeps its content, and the only new entries are the device directory, its ancestors and those files. On success every validated kind whose document is not null, and the theme if read, has its file in the device directory |
| Upload.ConfigsOf | apps/companion/dashmaster/api/upload.py:171 | `dict(birth.get("configs", {}))`: a missing key gives an empty map, an object gives its members, and other shapes fail |
| Upload.ConfigUpdates | apps/companion/dashmaster/api/upload.py:172-181 | `layout` and `rules` are always written. An optional kind is written iff its digest is present and non-empty. Nothing else is written |
| Upload.MergeBirth | apps/companion/dashmaster/api/upload.py:159-185 | Succeeds iff `dict` accepts the record's `configs`, and always for a missing record. A missing record starts as `{"device_id": host, "configs": {}}`. Every top-level key and every `configs` key is kept. The new digests overwrite only their own keys |
| Upload.Record | apps/companion/dashmaster/api/upload.py:136-186 | 404 iff the host is unknown, with the database untouched. Succeeds iff the host is known and its birth record, if any, can be merged. Otherwise devices are unchanged, exactly one history row is appended, and the host's birth record is the merge |
| Upload.Hashes | apps/companion/dashmaster/api/upload.py:187-197 | One entry per kind: its digest, or nothing when not uploaded |
| Upload.EventPayload | apps/companion/dashmaster/api/upload.py:200 | The keys are exactly `hostname` plus the six kind names. Each kind's value is its hash or null |
| Upload.Finish | apps/companion/dashmaster/api/upload.py:136-201 | A failed record leaves the database and bus unchanged. An accepted one returns the hashes and publishes `config.uploaded` with the payload built from them |
| Upload.Commit | apps/companion/dashmaster/api/upload.py:105-201 | A directory failure changes nothing. On every outcome, only the upload's own files and the device directory with its ancestors change in the tree. Acceptance needs a known device, writes the file of every validated kind whose document is not null, records the upload and publishes the event |
| Upload.UploadConfigPack | apps/companion/dashmaster/api/upload.py:62-201 | A validation failure changes nothing. Any refusal leaves the database and bus unchanged. An accepted result names the device and has all six hash keys, each the SHA-256 of the uploaded bytes or nothing |
| Upload.PackHashes | apps/companion/dashmaster/api/upload.py:187-197 | Over a validated pack, a hash is present exactly for the uploaded kinds and equals the digest of their raw bytes |
| UploadProperties.MissingTimerRejected | apps/companion/dashmaster/api/upload.py:78-83 | Actuator `i` lacks `ttl_s` or `cooldown_s` and all earlier ones are complete. Then the upload is refused with 400 and index `i`, the detail mentions `ttl`, and the state is unchanged |
| UploadProperties.CheckFromFindsFirst | apps/companion/dashmaster/api/upload.py:78-83 | The loop reports exactly the first incomplete entry |
| UploadProperties.UnknownDeviceAfterWrites | apps/companion/dashmaster/api/upload.py:105-145 | A valid pack for an unknown host gives 404 with database and bus untouched, while its files are already on disk |
| UploadProperties.AcceptedResult | apps/companion/dashmaster/api/upload.py:187-201 | An accepted upload returns the hashes of the validated pack |
| UploadProperties.AcceptedHistory | apps/companion/dashmaster/api/upload.py:147-157 | Exactly one history row is appended, and earlier rows and device rows are unchanged. The row names the device and actor, carries the response's six hashes, and has no note |
| UploadProperties.AcceptedBirth | apps/companion/dashmaster/api/upload.py:159-185 | Afterwards the birth record exists, and its `configs` hold the new layout and rules digests. Every earlier `configs` key is kept |
| UploadProperties.AcceptedEvent | apps/companion/dashmaster/api/upload.py:199-200 | Every subscriber with room receives `config.uploaded` with the payload built from the response, and the subscriber set is unchanged |
| UploadProperties.StoreSucceeds | apps/companion/dashmaster/api/upload.py:105-134 | Storing succeeds when the directory can be made and no file name is taken by a directory |
| UploadProperties.ChildWritable | apps/companion/dashmaster/api/upload.py:56-59 | After the `mkdir`, a name inside the new directory that is not a directory can be written |
| UploadProperties.UploadSucceeds | apps/companion/dashmaster/api/upload.py:75-201 | A pack that passes every check is accepted for a known device when storage can be written. This includes a re-upload, as long as the device's birth record has `configs` that `dict` accepts |
| UploadProperties.MergeIdempotent | apps/companion/dashmaster/api/upload.py:171-185 | Merging the same digests twice leaves the birth record as after the first merge |
| PortMap.HostIndexOf | apps/proxy/python-portmap/portmap.py:25 | The number in `esp-{idx:03}.local` reads back as `idx` |
| PortMap.DeviceHostInjective | apps/proxy/python-portmap/portmap.py:25 | Different devices get different host names |
| PortMap.MappingsUpTo | apps/proxy/python-portmap/portmap.py:24-33 | After `n` iterations there are `2n` mappings. Position `2i` is device `i`'s HTTP mapping and `2i+1` its admin mapping |
| PortMap.MappingDocumented | apps/proxy/python-portmap/portmap.py:24-33 | Each device mapping is the one its local port is documented to have |
| PortMap.BuildMappings | apps/proxy/python-portmap/portmap.py:22-34 | Fifty mappings on pairwise distinct local ports. Each is the documented mapping for its port: 8100+i goes to device i unchanged, and 8200+i goes to device i with `/admin` stripped |
| PortMap.EveryPortServed | apps/proxy/python-portmap/portmap.py:22-34 | Every port 8100-8124 and 8200-8224 has its mapping in the table |
| PortMap.BuildMappingsTargets | apps/proxy/python-portmap/portmap.py:22-34 | Every mapping targets port 80 of `esp-NNN.local`, where NNN is below 25 and equals the local port's offset from 8100 or 8200 |
| PortMap.RewriteBy | apps/proxy/python-portmap/portmap.py:85-94 | Fails iff the header has no CRLF. Everything from the first CRLF on is kept byte for byte. The header changes only if the request line has three space-separated parts and the target starts with the prefix |
| PortMap.RewriteAsWritten | apps/proxy/python-portmap/portmap.py:85-94 | The rewrite as the code cuts the target: fails iff there is no CRLF |
| PortMap.Rewrite | apps/proxy/python-portmap/portmap.py:85-94 | The rewrite cutting the matched bytes: fails iff there is no CRLF |
| PortMap.RewriteByHeader | apps/proxy/python-portmap/portmap.py:86-94 | Consider a header `method SP target SP version CRLF rest`. Method, version and `rest` are kept. The target is cut only when it starts with the prefix |
| PortMap.RewriteStripsPrefix | apps/proxy/python-portmap/portmap.py:91-93 | A target that starts with the prefix is forwarded as what follows the prefix, or `/` when nothing follows |
| PortMap.RewriteKeepsUnmatched | apps/proxy/python-portmap/portmap.py:91-94 | A target that does not start with the prefix leaves the header unchanged |
| PortMap.AdminPrefixNotSegmentAware | apps/proxy/python-portmap/portmap.py:91-92 | On an admin port `/administrator` becomes `istrator`, because matching is a plain byte prefix |
| PortMap.AsciiPrefixAgrees | apps/proxy/python-portmap/portmap.py:91-92 | For an ASCII prefix, cutting `len(prefix)` is cutting the matched bytes, so the code as written is correct |
| PortMap.AdminPrefixAgrees | apps/proxy/python-portmap/portmap.py:31 | For the `/admin` prefix of the shipped table, the as-written and corrected rewrites agree on every header |
| PortMap.AsWrittenKeepsPrefixBytes | apps/proxy/python-portmap/portmap.py:91-92 | With a non-ASCII prefix, the code as written forwards at least one trailing byte of the prefix's encoding at the front of the target |
| PortMap.AccentedPrefixCounterexample | apps/proxy/python-portmap/portmap.py:91-92 | With prefix `/é`, `GET /éx HTTP/1.1` is forwarded as written with target bytes `A9 78`, whereas the corrected rewrite gives `x` |
| PortMap.ForwardHeader | apps/proxy/python-portmap/portmap.py:58-59 | A mapping without a truthy `strip_prefix` forwards the header unchanged. Otherwise the as-written rewrite is applied. The forward fails iff a prefix is set and the header has no CRLF |
| PortMap.ForwardAsciiPrefix | apps/proxy/python-portmap/portmap.py:58-59 | With an ASCII `strip_prefix`, the forwarded header is the corrected rewrite |
| PortMap.ReadHeaderForwarded | apps/proxy/python-portmap/portmap.py:50-59 | A header read up to `CRLF CRLF` is always forwarded |
| PortMap.ForwardThroughTable | apps/proxy/python-portmap/portmap.py:58-59 | Through the built table, HTTP ports forward a request unchanged and admin ports forward it with `/admin` removed |

## Left out

- HTTP routing, FastAPI request parsing, SSE framing, timestamps (`created_at`,
  `updated_at`): transport and clock plumbing. The upload's inputs arrive as
  already-read bytes.
- The `device.claimed` and `device.released` events published by the device
  endpoints: they use the same `Events.Publish` as the upload event, and their
  payloads are not modelled.
- JSON parsing and serialisation, JSON-Schema checking, UTF-8 decoding and
  SHA-256: uninterpreted functions. JSON numbers are integers, since floats are
  not modelled.
- The text of the 400 details for invalid JSON and schema failures: it embeds
  library exception messages. The refusal kind and its status are modelled.
- Non-UTF-8 JSON uploads: `UnicodeDecodeError` escapes `_read_json`. The model
  gives it status 500 (`JsonNotUtf8`), not 400.
- Object iteration order: a JSON object is a map, so iterating an
  object-valued `actuators` visits keys in ascending order rather than
  insertion order.
- `dict(...)` of a non-empty list of pairs stored as `configs`: treated as
  malformed, like every non-object shape except empty ones.
- `DeviceBirth.sha256` and the `config_sha` column: never written by the code.
- Snapshot capture, rollback and device push: not implemented by the upload
  endpoint, so there is nothing to model.
- Database sessions and the SQL engine. Each endpoint is one atomic step, and
  a refused step leaves the database as it was. Integrity errors are modelled
  only for the seeding commit (`Registry.CommitSeed`).
- Registry entries missing a field: `entry["hostname"]` and the other
  subscripts raise `KeyError` (registry.py:30, 34-38). An entry is a typed
  record, so this error path is not modelled.
- A registry whose `devices` is `null` or another non-list: iterating it
  raises `TypeError` (registry.py:45). `devices` is modelled as present or
  absent, so this error path is not modelled.
- asyncio locking, `to_thread` and all concurrency: every operation is one
  sequential step.
- Socket forwarding in the port mapper (`handle_connection`'s connection
  set-up, `pump`, `start_server`, `main`), and the printing of the table.
- Full Unicode `str.lower()`: only ASCII case folding is modelled.
- Paths are lexical: `..` components are not resolved, and `resolve()` of the
  default roots is a parameter.
- The consumer side of a subscription (`queue.get()` in the stream endpoint)
  is not modelled. `Events.Delivered`, `Events.NoReplay` and
  `Events.DefaultNoReplay` describe a subscriber that has read nothing in
  between. Their capacity bounds assume no reads.
- Events.Subscribe: requires a positive queue size. `asyncio.Queue` treats a
  size of 0 or less as unbounded, which this bounded model does not cover.

## Findings

| source | as written | input that shows it | evidently intended | confidence | as-written member | corrected member |
|---|---|---|---|---|---|---|
| apps/proxy/python-portmap/portmap.py:91-92 | The target is matched against the UTF-8 bytes of the prefix, but `len(prefix)` bytes are cut: one per character | Prefix `/é` and request line `GET /éx HTTP/1.1` give the forwarded target bytes `A9 78` (a stray continuation byte, then `x`) | Cut as many bytes as were matched, `len(prefix.encode("utf-8"))`, giving target `x` | not executed; the shipped `/admin` prefix is ASCII and unaffected | PortMap.RewriteAsWritten | PortMap.Rewrite |

=== FILE: bytestrings.dfy ===
/** Byte strings (Python `bytes`) and UTF-8 encoding (`str.encode("utf-8")`). */
module ByteStrings {

  newtype byte = x: int | 0 <= x < 256

  type Bytes = seq<byte>

  const CR: byte := 13
  const LF: byte := 10
  const SP: byte := 32

  /** The UTF-8 encoding of one Unicode scalar value. */
  function EncodeChar(c: char): (r: Bytes)
    ensures 1 <= |r| <= 4
    ensures |r| == 1 <==> c as int < 0x80
    ensures |r| == 1 ==> r[0] as int == c as int
  {
    var n := c as int;
    if n < 0x80 then [n as byte]
    else if n < 0x800 then [(0xC0 + n / 64) as byte, (0x80 + n % 64) as byte]
    else if n < 0x10000 then
      [(0xE0 + n / 4096) as byte, (0x80 + (n / 64) % 64) as byte, (0x80 + n % 64) as byte]
    else
      [(0xF0 + n / 262144) as byte, (0x80 + (n / 4096) % 64) as byte,
       (0x80 + (n / 64) % 64) as byte, (0x80 + n % 64) as byte]
  }

  function Utf8Encode(s: string): (r: Bytes)
    ensures |r| >= |s|
    decreases |s|
  {
    if |s| == 0 then [] else EncodeChar(s[0]) + Utf8Encode(s[1..])
  }

  predicate IsAscii(s: string) {
    forall i :: 0 <= i < |s| ==> s[i] as int < 0x80
  }

  /** A string's UTF-8 encoding has exactly one byte per character iff the string is ASCII. */
  lemma {:induction false} EncodedLength(s: string)
    ensures |Utf8Encode(s)| == |s| <==> IsAscii(s)
    decreases |s|
  {
    if |s| > 0 {
      EncodedLength(s[1..]);
      assert IsAscii(s) <==> s[0] as int < 0x80 && IsAscii(s[1..]);
    }
  }

  /** An ASCII string encodes to the bytes of its code points. */
  lemma {:induction false} AsciiEncoding(s: string)
    requires IsAscii(s)
    ensures |Utf8Encode(s)| == |s|
    ensures forall i :: 0 <= i < |s| ==> Utf8Encode(s)[i] as int == s[i] as int
    decreases |s|
  {
    if |s| > 0 {
      AsciiEncoding(s[1..]);
    }
  }
}

=== FILE: devices.dfy ===
/** Listing, claiming, releasing and reading the birth record of devices (apps/companion/dashmaster/api/devices.py). */
module Devices {
  import opened Wrappers
  import opened Strings
  import opened Models
  import Seqs

  /** An HTTP error raised by the endpoints: 404 or 409 with its detail text. */
  datatype ApiError = NotFound(detail: string) | Conflict(detail: string) {
    function Status(): int {
      if NotFound? then 404 else 409
    }
  }

  function SlotKey(d: Device): int {
    d.slotIndex
  }

  /**
   * `_list()`: every device, in ascending `slot_index` order (the query's
   * `ORDER BY slot_index`).
   */
  function ListDevices(ds: seq<Device>): (r: seq<Device>)
    ensures Seqs.SortedBy(r, SlotKey)
    ensures multiset(r) == multiset(ds)
  {
    Seqs.SortBy(ds, SlotKey)
  }

  /**
   * Among the first `k` devices, the position of a device satisfying `p`
   * with the smallest slot index (the earliest such position on ties).
   */
  function FirstInSlotOrderBelow(ds: seq<Device>, p: Device -> bool, k: nat): (r: Option<nat>)
    requires k <= |ds|
    ensures r.None? <==> forall i :: 0 <= i < k ==> !p(ds[i])
    ensures r.Some? ==> r.value < k && p(ds[r.value])
    ensures r.Some? ==> forall i :: 0 <= i < k && p(ds[i]) ==> ds[r.value].slotIndex <= ds[i].slotIndex
    decreases k
  {
    if k == 0 then None
    else
      var prev := FirstInSlotOrderBelow(ds, p, k - 1);
      if !p(ds[k - 1]) then prev
      else if prev.None? || ds[k - 1].slotIndex < ds[prev.value].slotIndex then Some(k - 1)
      else prev
  }

  /**
   * `next(d for d in devices if p(d))` over the devices in slot order: the
   * position of the device satisfying `p` with the smallest slot index.
   */
  function FirstInSlotOrder(ds: seq<Device>, p: Device -> bool): (r: Option<nat>)
    ensures r.None? <==> forall i :: 0 <= i < |ds| ==> !p(ds[i])
    ensures r.Some? ==> r.value < |ds| && p(ds[r.value])
    ensures r.Some? ==> forall i :: 0 <= i < |ds| && p(ds[i]) ==> ds[r.value].slotIndex <= ds[i].slotIndex
  {
    FirstInSlotOrderBelow(ds, p, |ds|)
  }

  datatype ClaimRequest = ClaimRequest(profile: Option<string>, requestedHostname: Option<string>)

  datatype ClaimResponse = ClaimResponse(hostname: string, httpPort: int, adminPort: int, mqttTopic: string, slotIndex: int)

  /** The device `_claim` picks, or the error it raises. */
  datatype Target = Chosen(index: nat) | Refused(error: ApiError)

  const HostnameNotFound := "Requested hostname not found"
  const AlreadyClaimed := "Device already claimed"
  const NoFreeSlots := "No available device slots"

  /** `d` may be claimed for `req`: unclaimed, and either the requested device or, with nothing requested, the free one with the smallest slot. */
  predicate Claimable(ds: seq<Device>, req: ClaimRequest, i: int) {
    && 0 <= i < |ds|
    && ds[i].status == Unclaimed
    && (if IsTruthy(req.requestedHostname) then ds[i].hostname == req.requestedHostname.value
        else forall j :: 0 <= j < |ds| && ds[j].status == Unclaimed ==> ds[i].slotIndex <= ds[j].slotIndex)
  }

  /**
   * The device `_claim` picks: the requested device when it exists and is
   * unclaimed, else the free device with the smallest slot when nothing is
   * requested; each refusal carries the error of its own case. With hostnames
   * unique (the table's constraint), a device is chosen exactly when one is
   * claimable.
   */
  function SelectTarget(ds: seq<Device>, req: ClaimRequest): (r: Target)
    ensures r.Chosen? ==> Claimable(ds, req, r.index)
    ensures r == Refused(NotFound(HostnameNotFound)) <==>
              IsTruthy(req.requestedHostname) && req.requestedHostname.value !in Hostnames(ds)
    ensures UniqueHostnames(ds) && IsTruthy(req.requestedHostname) ==>
              forall i :: 0 <= i < |ds| && ds[i].hostname == req.requestedHostname.value ==>
                (ds[i].status != Unclaimed <==> r == Refused(Conflict(AlreadyClaimed)))
    ensures !IsTruthy(req.requestedHostname) ==>
              ((forall i :: 0 <= i < |ds| ==> ds[i].status != Unclaimed) <==> r == Refused(Conflict(NoFreeSlots)))
    ensures r.Refused? ==> r.error in {NotFound(HostnameNotFound), Conflict(AlreadyClaimed), Conflict(NoFreeSlots)}
    ensures UniqueHostnames(ds) || !IsTruthy(req.requestedHostname) ==>
              (r.Chosen? <==> exists i :: Claimable(ds, req, i))
  {
    if IsTruthy(req.requestedHostname) then
      var wanted := req.requestedHostname.value;
      match FirstInSlotOrder(ds, (d: Device) => d.hostname == wanted)
      case None => Refused(NotFound(HostnameNotFound))
      case Some(i) =>
        assert ds[i] in ds;
        assert UniqueHostnames(ds) ==> forall j :: 0 <= j < |ds| && j != i ==> ds[j].hostname != wanted by {
          if UniqueHostnames(ds) {
            forall j | 0 <= j < |ds| && j != i ensures ds[j].hostname != ds[i].hostname {
              if j < i { assert ds[j].hostname != ds[i].hostname; }
              else { assert ds[i].hostname != ds[j].hostname; }
            }
          }
        }
        if ds[i].status != Unclaimed then Refused(Conflict(AlreadyClaimed))
        else assert Claimable(ds, req, i); Chosen(i)
    else
      match FirstInSlotOrder(ds, (d: Device) => d.status == Unclaimed)
      case None => Refused(Conflict(NoFreeSlots))
      case Some(i) => assert Claimable(ds, req, i); Chosen(i)
  }

  datatype ClaimOutcome =
    | ClaimRejected(error: ApiError)
    | ClaimAccepted(devices: seq<Device>, response: ClaimResponse)

  function ResponseFor(d: Device): ClaimResponse {
    ClaimResponse(d.hostname, d.httpPort, d.adminPort, d.mqttTopic, d.slotIndex)
  }

  /**
   * `_claim()`: with a requested hostname, 404 when no device has it and 409
   * when that device is not unclaimed; without one (`None` or empty), the
   * unclaimed device with the smallest slot, or 409 when there is none. On
   * success only the target changes: status `claimed`, profile from the
   * request; the response describes the target.
   */
  function Claim(ds: seq<Device>, req: ClaimRequest): (r: ClaimOutcome)
    ensures r == ClaimRejected(NotFound(HostnameNotFound)) <==>
              IsTruthy(req.requestedHostname) && req.requestedHostname.value !in Hostnames(ds)
    ensures UniqueHostnames(ds) && IsTruthy(req.requestedHostname) ==>
              forall i :: 0 <= i < |ds| && ds[i].hostname == req.requestedHostname.value ==>
                (ds[i].status != Unclaimed <==> r == ClaimRejected(Conflict(AlreadyClaimed)))
    ensures !IsTruthy(req.requestedHostname) ==>
              ((forall i :: 0 <= i < |ds| ==> ds[i].status != Unclaimed) <==> r == ClaimRejected(Conflict(NoFreeSlots)))
    ensures r.ClaimRejected? ==> r.error.Status() in {404, 409}
    ensures UniqueHostnames(ds) || !IsTruthy(req.requestedHostname) ==>
              (r.ClaimAccepted? <==> exists i :: Claimable(ds, req, i))
    ensures r.ClaimAccepted? ==>
              exists i :: Claimable(ds, req, i)
                && r.devices == ds[i := ds[i].(status := Claimed, profile := req.profile)]
                && r.response == ResponseFor(ds[i])
  {
    match SelectTarget(ds, req)
    case Refused(e) => ClaimRejected(e)
    case Chosen(i) =>
      var d := ds[i];
      ClaimAccepted(ds[i := d.(status := Claimed, profile := req.profile)], ResponseFor(d))
  }

  /**
   * Without a requested hostname, the claimed device is the first unclaimed
   * one in the `list_devices` order (slot indexes being unique, as the table
   * enforces).
   */
  lemma ClaimTakesFirstListed(ds: seq<Device>, req: ClaimRequest)
    requires UniqueSlots(ds) && !IsTruthy(req.requestedHostname)
    requires exists i :: 0 <= i < |ds| && ds[i].status == Unclaimed
    ensures Claim(ds, req).ClaimAccepted?
    ensures var listed := ListDevices(ds);
            exists k :: 0 <= k < |listed|
              && listed[k].status == Unclaimed
              && (forall j :: 0 <= j < k ==> listed[j].status != Unclaimed)
              && Claim(ds, req).response == ResponseFor(listed[k])
  {
    assert Claim(ds, req) != ClaimRejected(Conflict(NoFreeSlots));
    var listed := ListDevices(ds);
    var i := SelectTarget(ds, req).index;
    var d := ds[i];
    assert d in multiset(ds);
    assert d in listed;
    var k := FirstIndexOf(listed, d);
    forall j | 0 <= j < k
      ensures listed[j].status != Unclaimed
    {
      assert listed[j] in multiset(ds);
      var m :| 0 <= m < |ds| && ds[m] == listed[j];
      assert SlotKey(listed[j]) <= SlotKey(listed[k]);
      assert m != i;
      assert ds[m].slotIndex < ds[i].slotIndex;
    }
  }

  function FirstIndexOf(s: seq<Device>, x: Device): (k: nat)
    requires x in s
    ensures k < |s| && s[k] == x && forall j :: 0 <= j < k ==> s[j] != x
  {
    if s[0] == x then 0 else FirstIndexOf(s[1..], x) + 1
  }

  datatype ReleaseResponse = ReleaseResponse(hostname: string, status: string)

  datatype ReleaseOutcome =
    | ReleaseRejected(error: ApiError)
    | ReleaseAccepted(devices: seq<Device>, response: ReleaseResponse)

  const DeviceNotFound := "Device not found"

  /**
   * `_release()`: 404 for an unknown hostname; otherwise that device becomes
   * `unclaimed` with no profile, whatever its status was, and no other device
   * changes.
   */
  function Release(ds: seq<Device>, hostname: string): (r: ReleaseOutcome)
    ensures r.ReleaseRejected? <==> hostname !in Hostnames(ds)
    ensures r.ReleaseRejected? ==> r.error == NotFound(DeviceNotFound)
    ensures r.ReleaseAccepted? ==>
              exists i :: 0 <= i < |ds| && ds[i].hostname == hostname
                && r.devices == ds[i := ds[i].(status := Unclaimed, profile := None)]
    ensures r.ReleaseAccepted? ==> r.response == ReleaseResponse(hostname, Unclaimed)
  {
    match FindHostname(ds, hostname)
    case None => ReleaseRejected(NotFound(DeviceNotFound))
    case Some(i) =>
      ReleaseAccepted(ds[i := ds[i].(status := Unclaimed, profile := None)], ReleaseResponse(hostname, Unclaimed))
  }

  /** Releasing twice has the same effect as releasing once. */
  lemma ReleaseIdempotent(ds: seq<Device>, hostname: string)
    requires Release(ds, hostname).ReleaseAccepted?
    ensures Release(Release(ds, hostname).devices, hostname) == Release(ds, hostname)
  {
    var i := FindHostname(ds, hostname).value;
    var once := Release(ds, hostname).devices;
    assert once == ds[i := ds[i].(status := Unclaimed, profile := None)];
    assert forall j :: 0 <= j < |ds| ==> once[j].hostname == ds[j].hostname;
    var i2 := FindHostname(once, hostname).value;
    assert i2 == i;
    assert once[i := once[i].(status := Unclaimed, profile := None)] == once;
  }

  datatype BirthOutcome = BirthRejected(error: ApiError) | BirthFound(hostname: string, birth: Birth)

  /**
   * `_load()`: 404 for an unknown hostname; a device without a birth record
   * yields an empty document rather than an error.
   */
  function LoadBirth(ds: seq<Device>, births: map<string, Birth>, hostname: string): (r: BirthOutcome)
    ensures r.BirthRejected? <==> hostname !in Hostnames(ds)
    ensures r.BirthRejected? ==> r.error == NotFound(DeviceNotFound)
    ensures r.BirthFound? ==> r.hostname == hostname
    ensures r.BirthFound? && hostname !in births ==> r.birth == map[]
    ensures r.BirthFound? && hostname in births ==> r.birth == births[hostname]
  {
    match FindHostname(ds, hostname)
    case None => BirthRejected(NotFound(DeviceNotFound))
    case Some(_) => BirthFound(hostname, if hostname in births then births[hostname] else map[])
  }
}

=== FILE: events.dfy ===
/**
 * The in-process publish/subscribe fan-out (apps/companion/dashmaster/core/events.py),
 * as a sequential state machine: each step below runs under the bus lock.
 */
module Events {
  import opened JsonValues

  /** `Event`: a type tag and a JSON payload. */
  datatype Event = Event(eventType: string, payload: map<string, Json>)

  /** A subscriber's bounded FIFO queue (`asyncio.Queue(max_queue_size)`). */
  datatype Queue = Queue(capacity: nat, items: seq<Event>)

  /** The subscriber set, each queue under its subscription handle, and the next unused handle. */
  datatype Bus = Bus(queues: map<nat, Queue>, nextHandle: nat)

  const DefaultQueueSize: nat := 100

  /** Handles are never reused, capacities are positive and no queue is over capacity. */
  predicate Valid(b: Bus) {
    forall h :: h in b.queues ==> h < b.nextHandle && 0 < b.queues[h].capacity && |b.queues[h].items| <= b.queues[h].capacity
  }

  /** `EventBus()`: no subscribers. */
  const Empty := Bus(map[], 0)

  predicate IsFull(q: Queue) {
    |q.items| >= q.capacity
  }

  /** `queue.put_nowait(event)`, with `QueueFull` swallowed: append if there is room, else leave the queue alone. */
  function Offer(q: Queue, e: Event): (r: Queue)
    ensures r.capacity == q.capacity
    ensures !IsFull(q) ==> r.items == q.items + [e]
    ensures IsFull(q) ==> r == q
  {
    if IsFull(q) then q else q.(items := q.items + [e])
  }

  /**
   * `publish(event_type, payload)`: the event goes to the tail of every queue
   * with room; full queues drop it without affecting the others; the
   * subscriber set is unchanged and publishing never fails.
   */
  function Publish(b: Bus, eventType: string, payload: map<string, Json>): (r: Bus)
    ensures r.queues.Keys == b.queues.Keys && r.nextHandle == b.nextHandle
    ensures forall h :: h in b.queues && !IsFull(b.queues[h]) ==>
              r.queues[h] == b.queues[h].(items := b.queues[h].items + [Event(eventType, payload)])
    ensures forall h :: h in b.queues && IsFull(b.queues[h]) ==> r.queues[h] == b.queues[h]
    ensures Valid(b) ==> Valid(r)
  {
    var e := Event(eventType, payload);
    Bus(map h | h in b.queues :: Offer(b.queues[h], e), b.nextHandle)
  }

  /** A subscription: the bus after subscribing and the handle of the new queue. */
  datatype Subscription = Subscription(bus: Bus, handle: nat)

  /**
   * Entering `subscribe(max_queue_size)`: exactly one new, empty queue of the
   * given capacity joins the set; the other queues are untouched.
   * `asyncio.Queue` treats a size of 0 or less as unbounded, which this
   * bounded model does not cover, hence the positive size.
   */
  function Subscribe(b: Bus, maxQueueSize: nat): (r: Subscription)
    requires Valid(b) && maxQueueSize > 0
    ensures r.handle !in b.queues
    ensures r.bus.queues == b.queues[r.handle := Queue(maxQueueSize, [])]
    ensures Valid(r.bus)
  {
    var h := b.nextHandle;
    Subscription(Bus(b.queues[h := Queue(maxQueueSize, [])], h + 1), h)
  }

  /**
   * Leaving `subscribe`: that queue, and only that one, leaves the set
   * (`discard`, so releasing an unknown handle changes nothing).
   */
  function Release(b: Bus, handle: nat): (r: Bus)
    ensures handle !in r.queues
    ensures r.queues.Keys == b.queues.Keys - {handle}
    ensures forall h :: h in r.queues ==> r.queues[h] == b.queues[h]
    ensures Valid(b) ==> Valid(r)
  {
    b.(queues := b.queues - {handle})
  }

  /** Publishing with no subscribers changes nothing. */
  lemma PublishToNobody(b: Bus, eventType: string, payload: map<string, Json>)
    requires b.queues == map[]
    ensures Publish(b, eventType, payload) == b
  {
  }

  /** Publishes a sequence of events in order. */
  function PublishAll(b: Bus, es: seq<Event>): (r: Bus)
    ensures r.queues.Keys == b.queues.Keys && r.nextHandle == b.nextHandle
    decreases |es|
  {
    if |es| == 0 then b
    else PublishAll(Publish(b, es[0].eventType, es[0].payload), es[1..])
  }

  function Min(a: nat, b: nat): nat {
    if a <= b then a else b
  }

  /**
   * No replay, bounded delivery: a queue with `items` and room for more,
   * fed the events `es`, ends up holding `items` followed by as many of `es`
   * as fit, in publication order; later events are dropped.
   */
  lemma {:induction false} Delivered(b: Bus, h: nat, es: seq<Event>)
    requires h in b.queues && |b.queues[h].items| <= b.queues[h].capacity
    ensures PublishAll(b, es).queues[h] == Fed(b.queues[h], es)
    decreases |es|
  {
    if |es| > 0 {
      var b1 := Publish(b, es[0].eventType, es[0].payload);
      assert b1.queues[h] == Offer(b.queues[h], es[0]);
      Delivered(b1, h, es[1..]);
      FedStep(b.queues[h], es);
    }
  }

  /** A queue after `es` were offered to it in turn: as many of `es` as fit are appended. */
  function Fed(q: Queue, es: seq<Event>): Queue
    requires |q.items| <= q.capacity
  {
    q.(items := q.items + es[..Min(q.capacity - |q.items|, |es|)])
  }

  lemma FedStep(q: Queue, es: seq<Event>)
    requires |q.items| <= q.capacity && |es| > 0
    ensures Fed(Offer(q, es[0]), es[1..]) == Fed(q, es)
  {
    if !IsFull(q) {
      var room := q.capacity - |q.items|;
      var n := Min(room - 1, |es| - 1);
      assert es[..n + 1] == [es[0]] + es[1..][..n];
    }
  }

  /** An empty queue fed `es` holds the first `capacity` of them. */
  lemma FedEmpty(capacity: nat, es: seq<Event>)
    ensures Fed(Queue(capacity, []), es).items == es[..Min(capacity, |es|)]
  {
    assert [] + es[..Min(capacity, |es|)] == es[..Min(capacity, |es|)];
  }

  /** A new subscriber receives exactly the events published after it joined, up to its capacity. */
  lemma NoReplay(b: Bus, maxQueueSize: nat, es: seq<Event>)
    requires Valid(b) && maxQueueSize > 0
    ensures var s := Subscribe(b, maxQueueSize);
            PublishAll(s.bus, es).queues[s.handle].items == es[..Min(maxQueueSize, |es|)]
  {
    var s := Subscribe(b, maxQueueSize);
    Delivered(s.bus, s.handle, es);
    FedEmpty(maxQueueSize, es);
  }

  /** With the default queue size, a new subscriber keeps the first 100 events published after it joined. */
  lemma DefaultNoReplay(b: Bus, es: seq<Event>)
    requires Valid(b)
    ensures var s := Subscribe(b, DefaultQueueSize);
            && s.bus.queues[s.handle].capacity == 100
            && PublishAll(s.bus, es).queues[s.handle].items == es[..Min(100, |es|)]
  {
    NoReplay(b, DefaultQueueSize, es);
  }
}

=== FILE: filesystem.dfy ===
/**
 * The part of `pathlib` the core uses, over a filesystem modelled as a map
 * from path to entry: `Path(str)`, `str(path)`, `path / name`,
 * `mkdir(parents=True, exist_ok=True)`, `write_bytes` and the directory
 * children seen by `iterdir()`.
 */
module FileSystem {
  import opened Wrappers
  import opened ByteStrings
  import Seqs

  /** A lexical path: absolute or relative, and its components. */
  datatype Path = Path(absolute: bool, parts: seq<string>)

  datatype Entry = Dir | File(content: Bytes)

  type Tree = map<Path, Entry>

  /** A component `pathlib` keeps: not empty, not `.`, no separator. */
  predicate IsComponent(name: string) {
    name != "" && name != "." && '/' !in name
  }

  predicate WellFormed(p: Path) {
    forall i :: 0 <= i < |p.parts| ==> IsComponent(p.parts[i])
  }

  /** Drops the empty and `.` pieces of a split path string. */
  function Components(pieces: seq<string>): (r: seq<string>)
    ensures forall i :: 0 <= i < |r| ==> r[i] != "" && r[i] != "." && r[i] in pieces
    decreases |pieces|
  {
    if |pieces| == 0 then []
    else if pieces[0] == "" || pieces[0] == "." then Components(pieces[1..])
    else [pieces[0]] + Components(pieces[1..])
  }

  lemma {:induction false} ComponentsKeep(pieces: seq<string>)
    requires forall i :: 0 <= i < |pieces| ==> IsComponent(pieces[i])
    ensures Components(pieces) == pieces
    decreases |pieces|
  {
    if |pieces| > 0 {
      ComponentsKeep(pieces[1..]);
    }
  }

  /** `Path(s)`: a leading `/` makes the path absolute; empty and `.` components vanish. */
  function Parse(s: string): (r: Path)
    ensures WellFormed(r)
    ensures r.absolute <==> |s| > 0 && s[0] == '/'
  {
    var pieces := Seqs.Split(s, '/');
    var r := Path(|s| > 0 && s[0] == '/', Components(pieces));
    assert forall i :: 0 <= i < |r.parts| ==> exists j :: 0 <= j < |pieces| && r.parts[i] == pieces[j];
    r
  }

  /** `str(p)`. */
  function Render(p: Path): string {
    if |p.parts| == 0 then (if p.absolute then "/" else ".")
    else (if p.absolute then "/" else "") + Seqs.Join(p.parts, '/')
  }

  /** Converting a well-formed path to a string and back gives the same path. */
  lemma ParseRender(p: Path)
    requires WellFormed(p)
    ensures Parse(Render(p)) == p
  {
    if |p.parts| > 0 {
      var joined := Seqs.Join(p.parts, '/');
      Seqs.SplitJoin(p.parts, '/');
      ComponentsKeep(p.parts);
      if p.absolute {
        var s := "/" + joined;
        assert Render(p) == s;
        assert s[1..] == joined;
        assert Seqs.Split(s, '/') == [[]] + p.parts;
        assert Components([[]] + p.parts) == Components(p.parts);
        assert Parse(s) == Path(true, Components(Seqs.Split(s, '/')));
      } else {
        assert "" + joined == joined;
        JoinStartsWith(p.parts, '/');
        assert Render(p) == joined;
        assert Seqs.Split(joined, '/') == p.parts;
        assert Parse(joined) == Path(false, Components(Seqs.Split(joined, '/')));
      }
    } else if p.absolute {
      assert Seqs.Split("/", '/') == [[]] + Seqs.Split([], '/');
    } else {
      assert Seqs.Split(".", '/') == [['.'] + []];
    }
  }

  lemma {:induction false} JoinStartsWith(parts: seq<string>, sep: char)
    requires |parts| > 0 && |parts[0]| > 0
    ensures |Seqs.Join(parts, sep)| > 0 && Seqs.Join(parts, sep)[0] == parts[0][0]
  {
  }

  /** `p / s`: an absolute `s` replaces `p`, a relative one extends it. */
  function Join(p: Path, s: string): (r: Path)
    ensures r.parts == (if Parse(s).absolute then [] else p.parts) + Parse(s).parts
  {
    var q := Parse(s);
    if q.absolute then q else Path(p.absolute, p.parts + q.parts)
  }

  function Child(p: Path, name: string): Path {
    Path(p.absolute, p.parts + [name])
  }

  function Parent(p: Path): Path
    requires |p.parts| > 0
  {
    Path(p.absolute, p.parts[..|p.parts| - 1])
  }

  /** The ancestor of `p` with its first `k` components. */
  function Prefix(p: Path, k: nat): Path
    requires k <= |p.parts|
  {
    Path(p.absolute, p.parts[..k])
  }

  predicate IsFileAt(t: Tree, p: Path) {
    p in t && t[p].File?
  }

  predicate IsDirAt(t: Tree, p: Path) {
    p in t && t[p].Dir?
  }

  /** `q` is `p` or one of its non-root ancestors. */
  predicate IsAncestorOrSelf(q: Path, p: Path) {
    q.absolute == p.absolute && 1 <= |q.parts| <= |p.parts| && q.parts == p.parts[..|q.parts|]
  }

  /**
   * `p.mkdir(parents=True, exist_ok=True)`: fails (`None`) exactly when `p`
   * or one of its ancestors is a file; otherwise `p` and all its ancestors
   * are directories afterwards, no existing entry changes and nothing else
   * is created.
   */
  function MakeDirs(t: Tree, p: Path): (r: Option<Tree>)
    ensures r.Some? <==> forall k :: 1 <= k <= |p.parts| ==> !IsFileAt(t, Prefix(p, k))
    ensures r.Some? ==> forall k :: 1 <= k <= |p.parts| ==> IsDirAt(r.value, Prefix(p, k))
    ensures r.Some? ==> forall q :: q in t ==> q in r.value && r.value[q] == t[q]
    ensures r.Some? ==> forall q :: q in r.value && q !in t ==> IsAncestorOrSelf(q, p)
    decreases |p.parts|
  {
    var n := |p.parts|;
    if n == 0 then Some(t)
    else
      var up := Parent(p);
      assert forall k :: 1 <= k <= n - 1 ==> Prefix(up, k) == Prefix(p, k);
      assert Prefix(p, n) == p;
      match MakeDirs(t, up)
      case None => None
      case Some(t1) =>
        assert forall q :: IsAncestorOrSelf(q, up) ==> IsAncestorOrSelf(q, p);
        if p in t1 then (if t1[p].Dir? then Some(t1) else None)
        else Some(t1[p := Dir])
  }

  /** After `mkdir(parents=True)` the requested path itself is a directory. */
  lemma MakeDirsMakesDir(t: Tree, p: Path)
    ensures MakeDirs(t, p).Some? && |p.parts| >= 1 ==> IsDirAt(MakeDirs(t, p).value, p)
  {
    if |p.parts| >= 1 {
      assert Prefix(p, |p.parts|) == p;
    }
  }

  /** `p.write_bytes(content)` is possible: `p` names no directory and its parent directory exists. */
  predicate CanWrite(t: Tree, p: Path) {
    && |p.parts| >= 1
    && !IsDirAt(t, p)
    && (|p.parts| == 1 || IsDirAt(t, Parent(p)))
  }

  /** `p.write_bytes(content)`: creates or replaces the file at `p` and nothing else. */
  function WriteFile(t: Tree, p: Path, content: Bytes): (r: Option<Tree>)
    ensures r.Some? <==> CanWrite(t, p)
    ensures r.Some? ==> r.value == t[p := File(content)]
  {
    if CanWrite(t, p) then Some(t[p := File(content)]) else None
  }

  /** Names of the subdirectories directly inside `d`. */
  function ChildDirNames(t: Tree, d: Path): set<string> {
    set q | q in t && t[q].Dir? && q.absolute == d.absolute && |q.parts| == |d.parts| + 1
                   && q.parts[..|d.parts|] == d.parts :: q.parts[|d.parts|]
  }

  lemma ChildDirNamesSpec(t: Tree, d: Path, name: string)
    ensures name in ChildDirNames(t, d) <==> IsDirAt(t, Child(d, name))
  {
    var c := Child(d, name);
    if IsDirAt(t, c) {
      assert c.parts[..|d.parts|] == d.parts;
      assert c.parts[|d.parts|] == name;
    }
    if name in ChildDirNames(t, d) {
      var q :| q in t && t[q].Dir? && q.absolute == d.absolute && |q.parts| == |d.parts| + 1
               && q.parts[..|d.parts|] == d.parts && q.parts[|d.parts|] == name;
      assert q.parts == d.parts + [name];
      assert q == c;
    }
  }
}

=== FILE: flags.dfy ===
/** Feature flags read from the environment (apps/companion/dashmaster/util/flags.py). */
module Flags {
  import opened Wrappers
  import opened Strings
  import opened Os

  const NtpGateVar := "DASHMASTER_NTP_GATE"
  const EnforcePinVar := "DASHMASTER_ENFORCE_PIN"

  /** The lower-cased spellings that turn a flag on. */
  const TruthyWords: set<string> := {"1", "true", "yes", "on"}

  const PinRequiredMessage := "Admin PIN required for this action"

  /**
   * `_env_flag(name, default=...)`: an unset variable gives the default; a set
   * one is on exactly when it spells one of the truthy words in any mix of
   * ASCII case, so a set but empty variable is off whatever the default.
   */
  function EnvFlag(env: Environment, name: string, default: bool): (r: bool)
    ensures name !in env ==> r == default
    ensures name in env ==> (r <==> exists w :: w in TruthyWords && EqualIgnoringCase(env[name], w))
    ensures name in env && env[name] == "" ==> !r
  {
    match GetEnv(env, name)
    case None => default
    case Some(raw) =>
      LowerMatches(raw, "1");
      LowerMatches(raw, "true");
      LowerMatches(raw, "yes");
      LowerMatches(raw, "on");
      Lower(raw) in TruthyWords
  }

  datatype FeatureFlags = FeatureFlags(ntpGate: bool, enforcePin: bool)

  /** `FeatureFlags()`: both flags off. */
  const Defaults := FeatureFlags(false, false)

  /** `FeatureFlags.from_env()`: each flag read from its own variable, off by default. */
  function FromEnv(env: Environment): (r: FeatureFlags)
    ensures r.ntpGate <==> NtpGateVar in env && exists w :: w in TruthyWords && EqualIgnoringCase(env[NtpGateVar], w)
    ensures r.enforcePin <==> EnforcePinVar in env && exists w :: w in TruthyWords && EqualIgnoringCase(env[EnforcePinVar], w)
    ensures NtpGateVar !in env && EnforcePinVar !in env ==> r == Defaults
  {
    FeatureFlags(EnvFlag(env, NtpGateVar, false), EnvFlag(env, EnforcePinVar, false))
  }

  /** Outcome of a gate: the action may go ahead, or `PermissionError` is raised. */
  datatype Gate = Allowed | PermissionDenied(message: string)

  /**
   * `ensure_pin_provided(pin)`: never refuses while enforcement is off; with
   * enforcement on, refuses exactly when the PIN is missing or empty.
   */
  function EnsurePinProvided(flags: FeatureFlags, pin: Option<string>): (r: Gate)
    ensures !flags.enforcePin ==> r == Allowed
    ensures flags.enforcePin ==> (r.PermissionDenied? <==> pin == None || pin == Some(""))
    ensures r.PermissionDenied? ==> r.message == PinRequiredMessage
  {
    if !flags.enforcePin then Allowed
    else if !IsTruthy(pin) then PermissionDenied(PinRequiredMessage)
    else Allowed
  }

  /**
   * `ensure_ntp_ready()`: the source's gate is a placeholder that lets every
   * action through, whether `ntp_gate` is on or off.
   */
  function EnsureNtpReady(flags: FeatureFlags): (r: Gate)
    ensures r == Allowed
  {
    Allowed
  }

  /** Upper- and mixed-case spellings of a truthy word turn the flag on. */
  lemma CaseInsensitive(env: Environment, name: string, default: bool)
    requires name in env && env[name] in {"TRUE", "On", "YES", "tRuE"}
    ensures EnvFlag(env, name, default)
  {
    var v := env[name];
    var w := if v == "On" then "on" else if v == "YES" then "yes" else "true";
    assert EqualIgnoringCase(v, w);
  }
}

=== FILE: jsonvalues.dfy ===
/**
 * Parsed JSON documents and the two Python operations the upload check
 * applies to them: `key in value` and iteration (`enumerate(value)`).
 */
module JsonValues {
  import opened Wrappers
  import Strings

  /** A value produced by `json.loads`. Numbers are kept as integers; objects as maps. */
  datatype Json =
    | Null
    | Bool(b: bool)
    | Num(n: int)
    | Str(s: string)
    | Arr(items: seq<Json>)
    | Obj(members: map<string, Json>)

  /**
   * Python's `key in value` for a string `key`: key membership on an object,
   * element equality on a list, substring search on a string; `None` where
   * Python raises `TypeError` (numbers, booleans, `null`).
   */
  function Contains(value: Json, key: string): (r: Option<bool>)
    ensures r.None? <==> value.Null? || value.Bool? || value.Num?
    ensures value.Obj? ==> r == Some(key in value.members)
  {
    match value
    case Obj(m) => Some(key in m)
    case Arr(xs) => Some(Str(key) in xs)
    case Str(s) => Some(Strings.IsSubstring(key, s))
    case _ => None
  }

  /**
   * The elements Python's `for x in value` visits: list items, one-character
   * strings, or object keys; `None` where Python raises `TypeError`. Object
   * keys are visited in ascending order, standing in for the document's
   * insertion order, which a map does not keep.
   */
  function Iterate(value: Json): (r: Option<seq<Json>>)
    ensures r.None? <==> value.Null? || value.Bool? || value.Num?
    ensures value.Arr? ==> r == Some(value.items)
  {
    match value
    case Arr(xs) => Some(xs)
    case Str(s) => Some(seq(|s|, i requires 0 <= i < |s| => Str([s[i]])))
    case Obj(m) =>
      var keys := Strings.Sorted(m.Keys);
      Some(seq(|keys|, i requires 0 <= i < |keys| => Str(keys[i])))
    case _ => None
  }
}

=== FILE: models.dfy ===
/**
 * Record shapes persisted by the companion (apps/companion/dashmaster/store/models.py).
 * Rows are identified by hostname, which the `devices` table keeps unique,
 * in place of the integer `devices.id` the other tables point to.
 */
module Models {
  import opened Wrappers
  import opened JsonValues

  const Unclaimed := "unclaimed"
  const Claimed := "claimed"

  /** A `devices` row (timestamps left out). */
  datatype Device = Device(
    hostname: string,
    slotIndex: int,
    httpPort: int,
    adminPort: int,
    mqttTopic: string,
    profile: Option<string>,
    status: string)

  /** A `config_history` row: one digest per artifact kind, the actor and a note. */
  datatype HistoryRow = HistoryRow(
    device: string,
    layoutSha: Option<string>,
    rulesSha: Option<string>,
    schemaSha: Option<string>,
    calibrationSha: Option<string>,
    boardMapSha: Option<string>,
    themeSha: Option<string>,
    actor: Option<string>,
    note: Option<string>)

  /** The JSON document of a `device_birth` row. */
  type Birth = map<string, Json>

  function Hostnames(ds: seq<Device>): set<string> {
    set d | d in ds :: d.hostname
  }

  /** The `UNIQUE` constraint on `devices.hostname`. */
  predicate UniqueHostnames(ds: seq<Device>) {
    forall i, j :: 0 <= i < j < |ds| ==> ds[i].hostname != ds[j].hostname
  }

  /** The `UNIQUE` constraint on `devices.slot_index`. */
  predicate UniqueSlots(ds: seq<Device>) {
    forall i, j :: 0 <= i < j < |ds| ==> ds[i].slotIndex != ds[j].slotIndex
  }

  /** `select(Device).where(Device.hostname == h).first()`: the position of the row with hostname `h`. */
  function FindHostname(ds: seq<Device>, h: string): (r: Option<nat>)
    ensures r.None? <==> h !in Hostnames(ds)
    ensures r.Some? ==> r.value < |ds| && ds[r.value].hostname == h
    ensures r.Some? ==> forall j :: 0 <= j < r.value ==> ds[j].hostname != h
    decreases |ds|
  {
    if |ds| == 0 then None
    else if ds[0].hostname == h then Some(0)
    else
      var rest := FindHostname(ds[1..], h);
      assert Hostnames(ds) == {ds[0].hostname} + Hostnames(ds[1..]) by {
        assert forall d :: d in ds <==> d == ds[0] || d in ds[1..];
      }
      match rest
      case None => None
      case Some(i) => Some(i + 1)
  }
}

=== FILE: os.dfy ===
/** The process environment as seen through `os.getenv`. */
module Os {
  import opened Wrappers

  type Environment = map<string, string>

  /** `os.getenv(name)`: the value when the variable is set, even when it is empty. */
  function GetEnv(env: Environment, name: string): Option<string> {
    Get(env, name)
  }
}

=== FILE: portmap.dfy ===
/**
 * The development port mapper (apps/proxy/python-portmap/portmap.py): the
 * fixed table of local ports, and the request-line rewrite applied to the
 * header of a connection on an admin port before it is forwarded. Sockets,
 * the byte pumps and the servers are left to the host.
 */
module PortMap {
  import opened Wrappers
  import opened Strings
  import opened ByteStrings
  import Seqs

  /** `PortMapping`: where one local port forwards, and the path prefix it strips (if any). */
  datatype PortMapping = PortMapping(localPort: int, targetHost: string, targetPort: int, stripPrefix: Option<string>)

  const DeviceCount: nat := 25
  const HttpBase: int := 8100
  const AdminBase: int := 8200
  const TargetPort: int := 80
  const AdminPrefix: string := "/admin"

  /** `f"esp-{idx:03}.local"`. */
  function DeviceHost(idx: nat): string {
    "esp-" + Pad3(idx) + ".local"
  }

  /** The device number a host name of the form `esp-<digits>.local` carries. */
  function HostIndex(host: string): Option<nat> {
    if |host| >= 10 && host[..4] == "esp-" && host[|host| - 6..] == ".local" && IsDigits(host[4..|host| - 6])
    then Some(DecimalValue(host[4..|host| - 6]))
    else None
  }

  /** The host name of device `idx` gives back `idx`. */
  lemma HostIndexOf(idx: nat)
    ensures HostIndex(DeviceHost(idx)) == Some(idx)
  {
    var d := Pad3(idx);
    Pad3Digits(idx);
    var h := DeviceHost(idx);
    assert h[..4] == "esp-";
    assert h[|h| - 6..] == ".local";
    assert h[4..|h| - 6] == d;
  }

  /** Different devices have different host names. */
  lemma DeviceHostInjective(i: nat, j: nat)
    requires DeviceHost(i) == DeviceHost(j)
    ensures i == j
  {
    HostIndexOf(i);
    HostIndexOf(j);
  }

  /**
   * The mapping that serves a local port, as the module describes the table:
   * ports 8100-8124 forward to device 0-24 unchanged, ports 8200-8224 to the
   * same devices with `/admin` stripped, all on target port 80.
   */
  function MappingFor(port: int): Option<PortMapping> {
    if HttpBase <= port < HttpBase + DeviceCount then Some(Mapping(port - HttpBase, false))
    else if AdminBase <= port < AdminBase + DeviceCount then Some(Mapping(port - AdminBase, true))
    else None
  }

  /** Device `idx`'s HTTP mapping, or its admin mapping. */
  function Mapping(idx: nat, admin: bool): PortMapping {
    if admin then PortMapping(AdminBase + idx, DeviceHost(idx), TargetPort, Some(AdminPrefix))
    else PortMapping(HttpBase + idx, DeviceHost(idx), TargetPort, None)
  }

  /** The two mappings appended for device `idx`: its HTTP port, then its admin port. */
  function DeviceMappings(idx: nat): seq<PortMapping> {
    [Mapping(idx, false), Mapping(idx, true)]
  }

  /** The mappings of devices `0 .. n - 1`, in loop order. */
  function MappingsUpTo(n: nat): (r: seq<PortMapping>)
    ensures |r| == 2 * n
    ensures forall i :: 0 <= i < |r| ==> r[i] == Mapping(i / 2, i % 2 == 1)
    decreases n
  {
    if n == 0 then []
    else
      var prev := MappingsUpTo(n - 1);
      var r := prev + DeviceMappings(n - 1);
      assert forall i :: 0 <= i < |prev| ==> r[i] == prev[i];
      assert (2 * n - 2) / 2 == n - 1 && (2 * n - 2) % 2 == 0;
      assert (2 * n - 1) / 2 == n - 1 && (2 * n - 1) % 2 == 1;
      assert r[2 * n - 2] == Mapping(n - 1, false) && r[2 * n - 1] == Mapping(n - 1, true);
      r
  }

  /** Each device mapping is the one its local port is documented to have. */
  lemma MappingDocumented(idx: nat, admin: bool)
    requires idx < DeviceCount
    ensures MappingFor(Mapping(idx, admin).localPort) == Some(Mapping(idx, admin))
  {
  }

  /**
   * `build_mappings()`: fifty mappings, device by device, on distinct local
   * ports, each one the mapping its local port is documented to have.
   */
  function BuildMappings(): (r: seq<PortMapping>)
    ensures |r| == 2 * DeviceCount
    ensures forall i :: 0 <= i < |r| ==> MappingFor(r[i].localPort) == Some(r[i])
    ensures forall i, j :: 0 <= i < j < |r| ==> r[i].localPort != r[j].localPort
  {
    var r := MappingsUpTo(DeviceCount);
    forall i | 0 <= i < |r| ensures MappingFor(r[i].localPort) == Some(r[i]) {
      MappingDocumented(i / 2, i % 2 == 1);
    }
    r
  }

  /** Every documented port has a mapping in the table, and it is the documented one. */
  lemma EveryPortServed(port: int)
    requires MappingFor(port).Some?
    ensures exists i :: 0 <= i < |BuildMappings()| && BuildMappings()[i] == MappingFor(port).value
  {
    var r := MappingsUpTo(DeviceCount);
    var admin := port >= AdminBase;
    var idx: nat := if admin then port - AdminBase else port - HttpBase;
    var i := 2 * idx + if admin then 1 else 0;
    assert i / 2 == idx && (i % 2 == 1 <==> admin);
    assert MappingFor(port) == Some(Mapping(idx, admin));
    assert r[i] == Mapping(idx, admin);
    assert BuildMappings() == r;
  }

  /**
   * Every mapping forwards to port 80 of a host `esp-NNN.local` whose number
   * is its local port's offset from 8100 or 8200, below 25.
   */
  lemma BuildMappingsTargets()
    ensures var r := BuildMappings();
            forall i :: 0 <= i < |r| ==>
              && r[i].targetPort == TargetPort
              && HostIndex(r[i].targetHost).Some?
              && HostIndex(r[i].targetHost).value < DeviceCount
              && r[i].localPort - HostIndex(r[i].targetHost).value in {HttpBase, AdminBase}
  {
    var r := BuildMappings();
    assert r == MappingsUpTo(DeviceCount);
    forall i | 0 <= i < |r|
      ensures && r[i].targetPort == TargetPort
              && HostIndex(r[i].targetHost).Some?
              && HostIndex(r[i].targetHost).value < DeviceCount
              && r[i].localPort - HostIndex(r[i].targetHost).value in {HttpBase, AdminBase}
    {
      var idx := i / 2;
      assert r[i] == Mapping(idx, i % 2 == 1);
      HostIndexOf(idx);
    }
  }

  // ---------------------------------------------------------------------
  // The request-line rewrite
  // ---------------------------------------------------------------------

  const CRLF: Bytes := [CR, LF]
  const Slash: Bytes := [47]

  predicate CrlfAt(h: Bytes, j: int) {
    0 <= j && j + 1 < |h| && h[j] == CR && h[j + 1] == LF
  }

  /** The position of the first CRLF at or after `i`. */
  function FindCrlfFrom(h: Bytes, i: nat): (r: Option<nat>)
    requires i <= |h|
    ensures r.Some? ==> i <= r.value && CrlfAt(h, r.value) && forall j :: i <= j < r.value ==> !CrlfAt(h, j)
    ensures r.None? ==> forall j :: i <= j < |h| ==> !CrlfAt(h, j)
    decreases |h| - i
  {
    if i + 1 >= |h| then None
    else if CrlfAt(h, i) then Some(i)
    else FindCrlfFrom(h, i + 1)
  }

  function FindCrlf(h: Bytes): Option<nat> {
    FindCrlfFrom(h, 0)
  }

  /** `path[cut:] or b"/"`. */
  function StripPath(path: Bytes, cut: nat): Bytes
    requires cut <= |path|
  {
    if cut == |path| then Slash else path[cut..]
  }

  /**
   * `rewrite_request_path` with the matched prefix given as bytes and the
   * number of bytes cut off the target given separately.
   * `header.split(b"\r\n", 1)` unpacked into two names raises `ValueError`
   * when there is no CRLF (`None`); a request line that does not split on
   * spaces into exactly three parts is returned as it was; otherwise a
   * target that starts with the prefix loses its first `cut` bytes (`/`
   * when nothing is left) and the line is rebuilt. Everything from the first
   * CRLF on is forwarded untouched.
   */
  function RewriteBy(header: Bytes, encoded: Bytes, cut: nat): (r: Option<Bytes>)
    requires cut <= |encoded|
    ensures r.None? <==> forall j :: 0 <= j < |header| ==> !CrlfAt(header, j)
    ensures r.Some? ==>
              var n := FindCrlf(header).value;
              |header| - n <= |r.value| && r.value[|r.value| - (|header| - n)..] == header[n..]
    ensures r.Some? && r.value != header ==>
              var parts := Seqs.Split(header[..FindCrlf(header).value], SP);
              |parts| == 3 && encoded <= parts[1]
  {
    match FindCrlf(header)
    case None => None
    case Some(n) =>
      var line := header[..n];
      var remainder := header[n + 2..];
      assert header == line + CRLF + remainder;
      var parts := Seqs.Split(line, SP);
      if |parts| != 3 then Some(header)
      else if encoded <= parts[1] then
        var out := Seqs.Join([parts[0], StripPath(parts[1], cut), parts[2]], SP) + CRLF + remainder;
        assert out[|out| - (|header| - n)..] == CRLF + remainder;
        Some(out)
      else Some(line + CRLF + remainder)
  }

  /** `rewrite_request_path(header, prefix)` as written: it matches the UTF-8 bytes of the prefix but cuts `len(prefix)` bytes, one per character. */
  function RewriteAsWritten(header: Bytes, prefix: string): (r: Option<Bytes>)
    ensures r.None? <==> forall j :: 0 <= j < |header| ==> !CrlfAt(header, j)
  {
    RewriteBy(header, Utf8Encode(prefix), |prefix|)
  }

  /** `rewrite_request_path(header, prefix)` cutting exactly the bytes it matched. */
  function Rewrite(header: Bytes, prefix: string): (r: Option<Bytes>)
    ensures r.None? <==> forall j :: 0 <= j < |header| ==> !CrlfAt(header, j)
  {
    RewriteBy(header, Utf8Encode(prefix), |Utf8Encode(prefix)|)
  }

  /** A request-line token: no space and no carriage return. */
  predicate IsToken(b: Bytes) {
    SP !in b && CR !in b
  }

  /** A header whose request line is `verb SP target SP version` (section 3 of RFC 9112), followed by `rest`. */
  function RequestHeader(verb: Bytes, target: Bytes, version: Bytes, rest: Bytes): Bytes {
    verb + [SP] + target + [SP] + version + CRLF + rest
  }

  lemma JoinThree(a: Bytes, b: Bytes, c: Bytes)
    ensures Seqs.Join([a, b, c], SP) == a + [SP] + b + [SP] + c
  {
    assert [a, b, c][1..] == [b, c];
    assert [b, c][1..] == [c];
    assert Seqs.Join([c], SP) == c;
    assert Seqs.Join([b, c], SP) == b + [SP] + c;
    assert Seqs.Join([a, b, c], SP) == a + [SP] + (b + [SP] + c);
  }

  /** The rewrite of a well-formed request header, for any cut. */
  lemma RewriteByHeader(verb: Bytes, target: Bytes, version: Bytes, rest: Bytes, encoded: Bytes, cut: nat)
    requires IsToken(verb) && IsToken(target) && IsToken(version)
    requires cut <= |encoded|
    ensures var t := if encoded <= target then StripPath(target, cut) else target;
            RewriteBy(RequestHeader(verb, target, version, rest), encoded, cut)
              == Some(RequestHeader(verb, t, version, rest))
  {
    var h := RequestHeader(verb, target, version, rest);
    var line := verb + [SP] + target + [SP] + version;
    assert h == line + CRLF + rest;
    assert CR !in line;
    assert CrlfAt(h, |line|);
    assert forall j :: 0 <= j < |line| ==> !CrlfAt(h, j) by {
      forall j | 0 <= j < |line| ensures h[j] != CR {
        assert h[j] == line[j];
      }
    }
    assert FindCrlf(h) == Some(|line|);
    assert h[..|line|] == line;
    assert h[|line| + 2..] == rest;
    JoinThree(verb, target, version);
    Seqs.SplitJoin([verb, target, version], SP);
    assert Seqs.Split(line, SP) == [verb, target, version];
    var t := if encoded <= target then StripPath(target, cut) else target;
    JoinThree(verb, t, version);
  }

  /**
   * A target that starts with the prefix's bytes is forwarded without them;
   * a target that was exactly the prefix becomes `/`.
   */
  lemma RewriteStripsPrefix(verb: Bytes, suffix: Bytes, version: Bytes, rest: Bytes, prefix: string)
    requires IsToken(verb) && IsToken(Utf8Encode(prefix) + suffix) && IsToken(version)
    ensures Rewrite(RequestHeader(verb, Utf8Encode(prefix) + suffix, version, rest), prefix)
              == Some(RequestHeader(verb, if suffix == [] then Slash else suffix, version, rest))
  {
    var enc := Utf8Encode(prefix);
    var target := enc + suffix;
    RewriteByHeader(verb, target, version, rest, enc, |enc|);
    assert enc <= target;
    assert target[|enc|..] == suffix;
  }

  /** A target that does not start with the prefix's bytes leaves the header as it was. */
  lemma RewriteKeepsUnmatched(verb: Bytes, target: Bytes, version: Bytes, rest: Bytes, prefix: string)
    requires IsToken(verb) && IsToken(target) && IsToken(version)
    requires !(Utf8Encode(prefix) <= target)
    ensures Rewrite(RequestHeader(verb, target, version, rest), prefix)
              == Some(RequestHeader(verb, target, version, rest))
  {
    var enc := Utf8Encode(prefix);
    RewriteByHeader(verb, target, version, rest, enc, |enc|);
  }

  /** The bytes of `/admin`. */
  lemma AdminPrefixBytes()
    ensures Utf8Encode(AdminPrefix) == [47, 97, 100, 109, 105, 110]
  {
    assert IsAscii(AdminPrefix);
    AsciiEncoding(AdminPrefix);
  }

  /** The stripping is textual: `/administrator` on an admin port is forwarded as `istrator`. */
  lemma AdminPrefixNotSegmentAware(verb: Bytes, version: Bytes, rest: Bytes)
    requires IsToken(verb) && IsToken(version)
    ensures var istrator: Bytes := [105, 115, 116, 114, 97, 116, 111, 114];
            var administrator: Bytes := [47, 97, 100, 109, 105, 110] + istrator;
            Rewrite(RequestHeader(verb, administrator, version, rest), AdminPrefix)
              == Some(RequestHeader(verb, istrator, version, rest))
  {
    var istrator: Bytes := [105, 115, 116, 114, 97, 116, 111, 114];
    AdminPrefixBytes();
    assert IsToken(Utf8Encode(AdminPrefix) + istrator);
    RewriteStripsPrefix(verb, istrator, version, rest, AdminPrefix);
  }

  /** UTF-8 encoding distributes over concatenation. */
  lemma {:induction false} Utf8EncodeAppend(a: string, b: string)
    ensures Utf8Encode(a + b) == Utf8Encode(a) + Utf8Encode(b)
    decreases |a|
  {
    if |a| == 0 {
      assert a + b == b;
    } else {
      Utf8EncodeAppend(a[1..], b);
      var e := EncodeChar(a[0]);
      assert (a + b)[0] == a[0];
      assert (a + b)[1..] == a[1..] + b;
      assert Utf8Encode(a) == e + Utf8Encode(a[1..]);
      assert Utf8Encode(a + b) == e + (Utf8Encode(a[1..]) + Utf8Encode(b));
    }
  }

  /** For an ASCII prefix, cutting one byte per character is cutting the matched bytes: the as-written rewrite is correct. */
  lemma AsciiPrefixAgrees(header: Bytes, prefix: string)
    requires IsAscii(prefix)
    ensures RewriteAsWritten(header, prefix) == Rewrite(header, prefix)
  {
    EncodedLength(prefix);
  }

  /** The prefix the built admin mappings strip is ASCII, so for the shipped table the two rewrites agree. */
  lemma AdminPrefixAgrees(header: Bytes)
    ensures RewriteAsWritten(header, AdminPrefix) == Rewrite(header, AdminPrefix)
  {
    assert IsAscii(AdminPrefix);
    AsciiPrefixAgrees(header, AdminPrefix);
  }

  /**
   * For a prefix with a non-ASCII character, the as-written rewrite leaves
   * the tail of the prefix's encoding (at least one byte) at the front of
   * the forwarded target.
   */
  lemma AsWrittenKeepsPrefixBytes(verb: Bytes, suffix: Bytes, version: Bytes, rest: Bytes, prefix: string)
    requires !IsAscii(prefix)
    requires IsToken(verb) && IsToken(Utf8Encode(prefix) + suffix) && IsToken(version)
    ensures var enc := Utf8Encode(prefix);
            && |prefix| < |enc|
            && RewriteAsWritten(RequestHeader(verb, enc + suffix, version, rest), prefix)
                 == Some(RequestHeader(verb, enc[|prefix|..] + suffix, version, rest))
  {
    var enc := Utf8Encode(prefix);
    var target := enc + suffix;
    EncodedLength(prefix);
    RewriteByHeader(verb, target, version, rest, enc, |prefix|);
    assert enc <= target;
    assert target[|prefix|..] == enc[|prefix|..] + suffix;
  }

  /**
   * With the prefix `/é`, `GET /éx HTTP/1.1` is forwarded as written with
   * target bytes `A9 78` (the second byte of `é`, then `x`); stripping the
   * matched bytes gives `x`.
   */
  lemma AccentedPrefixCounterexample()
    ensures var prefix := "/é";
            var get: Bytes := [71, 69, 84];
            var version: Bytes := [72, 84, 84, 80, 47, 49, 46, 49];
            var header := RequestHeader(get, [47, 0xC3, 0xA9, 120], version, CRLF);
            && RewriteAsWritten(header, prefix) == Some(RequestHeader(get, [0xA9, 120], version, CRLF))
            && Rewrite(header, prefix) == Some(RequestHeader(get, [120], version, CRLF))
  {
    var prefix := "/é";
    var get: Bytes := [71, 69, 84];
    var version: Bytes := [72, 84, 84, 80, 47, 49, 46, 49];
    var enc := Utf8Encode(prefix);
    assert EncodeChar('é') == [0xC3, 0xA9];
    assert enc == [47, 0xC3, 0xA9];
    assert !IsAscii(prefix) by {
      assert prefix[1] as int >= 0x80;
    }
    assert IsToken(get) && IsToken(version) && IsToken(enc + [120]);
    AsWrittenKeepsPrefixBytes(get, [120], version, CRLF, prefix);
    RewriteStripsPrefix(get, [120], version, CRLF, prefix);
    assert enc + [120] == [47, 0xC3, 0xA9, 120];
    assert enc[|prefix|..] + [120] == [0xA9, 120];
  }

  /**
   * The header `handle_connection` sends upstream: rewritten as written when
   * the mapping's `strip_prefix` is truthy, unchanged otherwise; `None` when
   * the rewrite raises.
   */
  function ForwardHeader(m: PortMapping, header: Bytes): (r: Option<Bytes>)
    ensures !IsTruthy(m.stripPrefix) ==> r == Some(header)
    ensures r.None? <==> IsTruthy(m.stripPrefix) && forall j :: 0 <= j < |header| ==> !CrlfAt(header, j)
  {
    if IsTruthy(m.stripPrefix) then RewriteAsWritten(header, m.stripPrefix.value) else Some(header)
  }

  /** With an ASCII `strip_prefix`, as every mapping of the built table has, the forward is the corrected rewrite. */
  lemma ForwardAsciiPrefix(m: PortMapping, header: Bytes)
    requires IsTruthy(m.stripPrefix) && IsAscii(m.stripPrefix.value)
    ensures ForwardHeader(m, header) == Rewrite(header, m.stripPrefix.value)
  {
    AsciiPrefixAgrees(header, m.stripPrefix.value);
  }

  /** `reader.readuntil(b"\r\n\r\n")` always hands over a header the rewrite accepts. */
  lemma ReadHeaderForwarded(m: PortMapping, header: Bytes)
    requires |header| >= 4 && header[|header| - 4..] == CRLF + CRLF
    ensures ForwardHeader(m, header).Some?
  {
    assert CrlfAt(header, |header| - 2);
  }

  /**
   * Through the built table: an HTTP port forwards a request header as it
   * came; an admin port forwards it with a leading `/admin` removed.
   */
  lemma ForwardThroughTable(i: nat, verb: Bytes, suffix: Bytes, version: Bytes, rest: Bytes)
    requires i < |BuildMappings()|
    requires IsToken(verb) && IsToken(Utf8Encode(AdminPrefix) + suffix) && IsToken(version)
    ensures var h := RequestHeader(verb, Utf8Encode(AdminPrefix) + suffix, version, rest);
            ForwardHeader(BuildMappings()[i], h)
              == Some(if i % 2 == 0 then h else RequestHeader(verb, if suffix == [] then Slash else suffix, version, rest))
  {
    var m := MappingsUpTo(DeviceCount)[i];
    if i % 2 == 1 {
      AdminPrefixAgrees(RequestHeader(verb, Utf8Encode(AdminPrefix) + suffix, version, rest));
      RewriteStripsPrefix(verb, suffix, version, rest, AdminPrefix);
    }
  }
}

=== FILE: registry.dfy ===
/** Seeding the `devices` table from the reservations registry (apps/companion/dashmaster/store/registry.py). */
module Registry {
  import opened Wrappers
  import opened Models

  /** One entry of the registry's `devices` list. */
  datatype Entry = Entry(hostname: string, slotIndex: int, httpPort: int, adminPort: int, mqttTopic: string)

  /** The registry document; `devices` may be absent. */
  datatype RegistryDoc = RegistryDoc(devices: Option<seq<Entry>>)

  /** `_iter_devices(data)`: the `devices` list, or nothing when the key is absent. */
  function IterDevices(doc: RegistryDoc): (r: seq<Entry>)
    ensures doc.devices.None? ==> r == []
    ensures doc.devices.Some? ==> r == doc.devices.value
  {
    doc.devices.GetOr([])
  }

  /** The row inserted for a registry entry: its fields copied, no profile, status `unclaimed`. */
  function NewDevice(e: Entry): (d: Device)
    ensures d.hostname == e.hostname && d.slotIndex == e.slotIndex && d.httpPort == e.httpPort
    ensures d.adminPort == e.adminPort && d.mqttTopic == e.mqttTopic
    ensures d.status == Unclaimed && d.profile == None
  {
    Device(e.hostname, e.slotIndex, e.httpPort, e.adminPort, e.mqttTopic, None, Unclaimed)
  }

  /**
   * The rows added for `entries` when the hostnames in `existing` are
   * already present: one per entry whose hostname is not in `existing`.
   * `existing` is fixed for the whole pass, so two entries with the same new
   * hostname are both staged, and the commit then fails (`DuplicatesRefused`).
   */
  function NewRows(entries: seq<Entry>, existing: set<string>): (r: seq<Device>)
    ensures |r| <= |entries|
    ensures forall d :: d in r ==> exists e :: e in entries && e.hostname !in existing && d == NewDevice(e)
    ensures forall e :: e in entries && e.hostname !in existing ==> NewDevice(e) in r
    decreases |entries|
  {
    if |entries| == 0 then []
    else
      var rest := NewRows(entries[1..], existing);
      assert forall e :: e in entries <==> e == entries[0] || e in entries[1..];
      if entries[0].hostname in existing then rest
      else [NewDevice(entries[0])] + rest
  }

  /** New rows appear in registry order: the rows for a concatenation are the concatenation of the rows. */
  lemma {:induction false} NewRowsInOrder(a: seq<Entry>, b: seq<Entry>, existing: set<string>)
    ensures NewRows(a + b, existing) == NewRows(a, existing) + NewRows(b, existing)
    decreases |a|
  {
    if |a| > 0 {
      assert (a + b)[1..] == a[1..] + b;
      NewRowsInOrder(a[1..], b, existing);
    } else {
      assert a + b == b;
    }
  }

  /**
   * `seed_devices(session)`: the session's rows afterwards, the new rows
   * staged by `session.add` after the existing ones, which are left as they
   * were. Nothing is committed yet.
   */
  function SeedDevices(table: seq<Device>, doc: RegistryDoc): (r: seq<Device>)
    ensures |r| >= |table| && r[..|table|] == table
    ensures r[|table|..] == NewRows(IterDevices(doc), Hostnames(table))
    ensures doc.devices.None? ==> r == table
  {
    table + NewRows(IterDevices(doc), Hostnames(table))
  }

  lemma {:induction false} NoRowsWhenAllPresent(entries: seq<Entry>, existing: set<string>)
    requires forall e :: e in entries ==> e.hostname in existing
    ensures NewRows(entries, existing) == []
    decreases |entries|
  {
    if |entries| > 0 {
      assert entries[0] in entries;
      assert forall e :: e in entries[1..] ==> e in entries;
      NoRowsWhenAllPresent(entries[1..], existing);
    }
  }

  /** Seeding again from the same registry adds nothing. */
  lemma SeedIdempotent(table: seq<Device>, doc: RegistryDoc)
    ensures SeedDevices(SeedDevices(table, doc), doc) == SeedDevices(table, doc)
  {
    var once := SeedDevices(table, doc);
    var entries := IterDevices(doc);
    forall e | e in entries
      ensures e.hostname in Hostnames(once)
    {
      if e.hostname in Hostnames(table) {
        var d :| d in table && d.hostname == e.hostname;
        assert d in once by {
          var i :| 0 <= i < |table| && table[i] == d;
          assert once[i] == d;
        }
      } else {
        var d := NewDevice(e);
        assert d in once[|table|..];
        assert d in once;
      }
    }
    NoRowsWhenAllPresent(entries, Hostnames(once));
    assert once + [] == once;
  }

  /**
   * The `session.commit()` that follows `seed_devices` in the seeding script:
   * the staged rows persist when the `UNIQUE` constraints on hostname and
   * slot hold; otherwise the commit raises `IntegrityError` (`None`) and the
   * table keeps only the rows it had.
   */
  function CommitSeed(table: seq<Device>, doc: RegistryDoc): (r: Option<seq<Device>>)
    ensures r.Some? ==> UniqueHostnames(r.value) && UniqueSlots(r.value)
    ensures r.Some? ==> |r.value| >= |table| && r.value[..|table|] == table && r.value[|table|..] == NewRows(IterDevices(doc), Hostnames(table))
    ensures r.None? <==> !UniqueHostnames(SeedDevices(table, doc)) || !UniqueSlots(SeedDevices(table, doc))
  {
    var staged := SeedDevices(table, doc);
    if UniqueHostnames(staged) && UniqueSlots(staged) then Some(staged) else None
  }

  /**
   * Two registry entries sharing a hostname that is not yet present are both
   * staged, so the commit violates `UNIQUE(hostname)` and adds neither.
   */
  lemma DuplicatesRefused(table: seq<Device>, e1: Entry, e2: Entry)
    requires e1.hostname == e2.hostname && e1.hostname !in Hostnames(table)
    ensures SeedDevices(table, RegistryDoc(Some([e1, e2]))) == table + [NewDevice(e1), NewDevice(e2)]
    ensures CommitSeed(table, RegistryDoc(Some([e1, e2]))) == None
  {
    assert [e1, e2][1..] == [e2];
    assert [e2][1..] == [];
    var staged := SeedDevices(table, RegistryDoc(Some([e1, e2])));
    assert staged[|table|].hostname == staged[|table| + 1].hostname;
  }
}

=== FILE: seqs.dfy ===
/** Sequence utilities shared by the path, request-line and ordering models. */
module Seqs {

  /** Number of occurrences of `x` in `s`. */
  function Count<T(==)>(s: seq<T>, x: T): nat {
    if |s| == 0 then 0 else (if s[0] == x then 1 else 0) + Count(s[1..], x)
  }

  /**
   * Python's `s.split(sep)` for a one-element separator: cuts at every
   * occurrence, so adjacent separators give empty pieces and the empty input
   * gives one empty piece.
   */
  function Split<T(==)>(s: seq<T>, sep: T): (r: seq<seq<T>>)
    ensures |r| == Count(s, sep) + 1
    ensures forall i :: 0 <= i < |r| ==> sep !in r[i]
    decreases |s|
  {
    if |s| == 0 then [[]]
    else
      var rest := Split(s[1..], sep);
      if s[0] == sep then [[]] + rest
      else [[s[0]] + rest[0]] + rest[1..]
  }

  /** Python's `sep.join(parts)`. */
  function Join<T>(parts: seq<seq<T>>, sep: T): seq<T>
    decreases |parts|
  {
    if |parts| == 0 then []
    else if |parts| == 1 then parts[0]
    else parts[0] + [sep] + Join(parts[1..], sep)
  }

  /** Joining the pieces of a split gives back the original sequence. */
  lemma {:induction false} JoinSplit<T>(s: seq<T>, sep: T)
    ensures Join(Split(s, sep), sep) == s
    decreases |s|
  {
    if |s| > 0 {
      var rest := Split(s[1..], sep);
      JoinSplit(s[1..], sep);
      if s[0] == sep {
        assert Split(s, sep) == [[]] + rest;
        assert Join([[]] + rest, sep) == [] + [sep] + Join(rest, sep);
      } else {
        var r := [[s[0]] + rest[0]] + rest[1..];
        assert Split(s, sep) == r;
        if |rest| == 1 {
          assert Join(r, sep) == [s[0]] + rest[0];
          assert Join(rest, sep) == rest[0];
        } else {
          assert r[1..] == rest[1..];
          assert Join(r, sep) == [s[0]] + rest[0] + [sep] + Join(rest[1..], sep);
          assert Join(rest, sep) == rest[0] + [sep] + Join(rest[1..], sep);
        }
      }
    }
  }

  /** Splitting a join of separator-free pieces gives back the pieces. */
  lemma {:induction false} SplitJoin<T>(parts: seq<seq<T>>, sep: T)
    requires |parts| >= 1
    requires forall i :: 0 <= i < |parts| ==> sep !in parts[i]
    ensures Split(Join(parts, sep), sep) == parts
    decreases |parts|, |parts[0]|
  {
    if |parts[0]| > 0 {
      var p0 := parts[0];
      var tail := [p0[1..]] + parts[1..];
      SplitJoin(tail, sep);
      var s := Join(parts, sep);
      if |parts| == 1 {
        assert Join(tail, sep) == p0[1..];
        assert s[1..] == p0[1..];
      } else {
        assert tail[1..] == parts[1..];
        assert s[1..] == Join(tail, sep);
      }
      assert s[0] == p0[0] && p0[0] != sep;
      assert [p0[0]] + p0[1..] == p0;
    } else if |parts| > 1 {
      SplitJoin(parts[1..], sep);
      var s := Join(parts, sep);
      assert s == [sep] + Join(parts[1..], sep);
      assert s[1..] == Join(parts[1..], sep);
    }
  }

  /** `key` is ascending (ties allowed) along `s`. */
  predicate SortedBy<T>(s: seq<T>, key: T -> int) {
    forall i, j :: 0 <= i < j < |s| ==> key(s[i]) <= key(s[j])
  }

  function Insert<T>(x: T, s: seq<T>, key: T -> int): (r: seq<T>)
    requires SortedBy(s, key)
    ensures SortedBy(r, key)
    ensures multiset(r) == multiset(s) + multiset{x}
    ensures |r| == |s| + 1
    ensures key(r[0]) == if |s| == 0 || key(x) < key(s[0]) then key(x) else key(s[0])
    decreases |s|
  {
    if |s| == 0 || key(x) < key(s[0]) then [x] + s
    else
      var tail := Insert(x, s[1..], key);
      assert s == [s[0]] + s[1..];
      var r := [s[0]] + tail;
      assert key(s[0]) <= key(tail[0]);
      assert forall j :: 0 <= j < |tail| ==> key(tail[0]) <= key(tail[j]);
      r
  }

  /**
   * A stable sort of `s` by `key`, standing in for SQL `ORDER BY`: the result
   * is ascending in `key` and holds exactly the elements of `s`.
   */
  function SortBy<T>(s: seq<T>, key: T -> int): (r: seq<T>)
    ensures SortedBy(r, key)
    ensures multiset(r) == multiset(s)
    decreases |s|
  {
    if |s| == 0 then []
    else
      assert s == [s[0]] + s[1..];
      Insert(s[0], SortBy(s[1..], key), key)
  }
}

=== FILE: storage.dfy ===
/** Per-device storage layout and snapshot listing (apps/companion/dashmaster/util/storage.py). */
module Storage {
  import opened Wrappers
  import opened Os
  import opened FileSystem
  import Strings

  const RootVar := "DASHMASTER_STORAGE_ROOT"
  const HistoryDirName := "history"

  /**
   * `storage_root()`: the path named by `DASHMASTER_STORAGE_ROOT` when it is
   * set, otherwise the built-in default (`defaultRoot`, derived from the
   * package location).
   */
  function StorageRoot(env: Environment, defaultRoot: Path): (r: Path)
    ensures RootVar in env ==> r == Parse(env[RootVar])
    ensures RootVar !in env && WellFormed(defaultRoot) ==> r == defaultRoot
  {
    var raw := GetEnv(env, RootVar).GetOr(Render(defaultRoot));
    if RootVar !in env && WellFormed(defaultRoot) then
      ParseRender(defaultRoot);
      Parse(raw)
    else Parse(raw)
  }

  /** A path together with the filesystem after the call that produced it. */
  datatype Located = Located(path: Path, tree: Tree)

  /**
   * `device_storage_dir(hostname)`: `root / hostname`, created with its
   * ancestors; fails (`None`, an `OSError`) when a file is in the way.
   */
  function DeviceStorageDir(env: Environment, defaultRoot: Path, t: Tree, hostname: string): (r: Option<Located>)
    ensures var dir := Join(StorageRoot(env, defaultRoot), hostname);
            && (r.Some? <==> forall k :: 1 <= k <= |dir.parts| ==> !IsFileAt(t, Prefix(dir, k)))
            && (r.Some? ==> r.value.path == dir)
            && (r.Some? && |dir.parts| >= 1 ==> IsDirAt(r.value.tree, dir))
            && (r.Some? ==> forall q :: q in t ==> q in r.value.tree && r.value.tree[q] == t[q])
  {
    var dir := Join(StorageRoot(env, defaultRoot), hostname);
    MakeDirsMakesDir(t, dir);
    match MakeDirs(t, dir)
    case None => None
    case Some(t1) => Some(Located(dir, t1))
  }

  /**
   * `snapshots_dir(hostname)`: `root / hostname / "history"`. It creates the
   * device directory but leaves `history` itself as it was.
   */
  function SnapshotsDir(env: Environment, defaultRoot: Path, t: Tree, hostname: string): (r: Option<Located>)
    ensures r.Some? <==> DeviceStorageDir(env, defaultRoot, t, hostname).Some?
    ensures r.Some? ==> var d := DeviceStorageDir(env, defaultRoot, t, hostname).value;
                        r.value.path == Child(d.path, HistoryDirName) && r.value.tree == d.tree
    ensures r.Some? ==> (r.value.path in r.value.tree <==> r.value.path in t)
    ensures r.Some? && r.value.path in t ==> r.value.tree[r.value.path] == t[r.value.path]
  {
    match DeviceStorageDir(env, defaultRoot, t, hostname)
    case None => None
    case Some(d) =>
      var h := Child(d.path, HistoryDirName);
      assert !IsAncestorOrSelf(h, d.path);
      Some(Located(h, d.tree))
  }

  /** The snapshots found in one listing, in the order returned, and the filesystem afterwards. */
  datatype Listing = Listing(tree: Tree, snapshots: seq<Path>)

  /** The label of a snapshot directory: its last component. */
  function Label(p: Path): string
    requires |p.parts| > 0
  {
    p.parts[|p.parts| - 1]
  }

  /**
   * The subdirectories directly inside `dir` (`iterdir` filtered by
   * `is_dir`), each once, in ascending label order (`sorted`).
   */
  function ChildDirs(t: Tree, dir: Path): (snaps: seq<Path>)
    ensures forall i :: 0 <= i < |snaps| ==>
              && |snaps[i].parts| > 0
              && snaps[i] == Child(dir, Label(snaps[i]))
              && IsDirAt(t, snaps[i])
    ensures forall name :: IsDirAt(t, Child(dir, name)) ==> Child(dir, name) in snaps
    ensures forall i, j :: 0 <= i < j < |snaps| ==> Strings.Less(Label(snaps[i]), Label(snaps[j]))
  {
    var names := Strings.Sorted(ChildDirNames(t, dir));
    var snaps := seq(|names|, i requires 0 <= i < |names| => Child(dir, names[i]));
    ChildDirsSpec(t, dir, names, snaps);
    snaps
  }

  lemma ChildDirsSpec(t: Tree, dir: Path, names: seq<string>, snaps: seq<Path>)
    requires names == Strings.Sorted(ChildDirNames(t, dir))
    requires |snaps| == |names| && forall i :: 0 <= i < |names| ==> snaps[i] == Child(dir, names[i])
    ensures forall i :: 0 <= i < |snaps| ==>
              && |snaps[i].parts| > 0
              && snaps[i] == Child(dir, Label(snaps[i]))
              && IsDirAt(t, snaps[i])
    ensures forall name :: IsDirAt(t, Child(dir, name)) ==> Child(dir, name) in snaps
    ensures forall i, j :: 0 <= i < j < |snaps| ==> Strings.Less(Label(snaps[i]), Label(snaps[j]))
  {
    assert forall i :: 0 <= i < |snaps| ==> Label(snaps[i]) == names[i];
    forall i | 0 <= i < |snaps|
      ensures IsDirAt(t, snaps[i])
    {
      ChildDirNamesSpec(t, dir, names[i]);
    }
    forall name | IsDirAt(t, Child(dir, name))
      ensures Child(dir, name) in snaps
    {
      ChildDirNamesSpec(t, dir, name);
      var i :| 0 <= i < |names| && names[i] == name;
      assert snaps[i] == Child(dir, name);
    }
  }

  /**
   * `iter_snapshots(hostname)`: nothing when `history` is missing; otherwise
   * its subdirectories (files are skipped) in ascending label order. Fails
   * when the device directory cannot be created or `history` is a file
   * (`iterdir` on a file raises).
   */
  function IterSnapshots(env: Environment, defaultRoot: Path, t: Tree, hostname: string): (r: Option<Listing>)
    ensures SnapshotsDir(env, defaultRoot, t, hostname).None? ==> r.None?
    ensures SnapshotsDir(env, defaultRoot, t, hostname).Some? ==>
      var h := SnapshotsDir(env, defaultRoot, t, hostname).value;
      && (r.None? <==> IsFileAt(h.tree, h.path))
      && (r.Some? ==> r.value.tree == h.tree)
      && (r.Some? && h.path !in h.tree ==> r.value.snapshots == [])
      && (r.Some? && h.path in h.tree ==> r.value.snapshots == ChildDirs(h.tree, h.path))
  {
    match SnapshotsDir(env, defaultRoot, t, hostname)
    case None => None
    case Some(h) =>
      if h.path !in h.tree then Some(Listing(h.tree, []))
      else if h.tree[h.path].File? then None
      else Some(Listing(h.tree, ChildDirs(h.tree, h.path)))
  }

  /** The last snapshot listed carries the greatest label of all snapshot directories: it is the latest. */
  lemma LastIsLatest(env: Environment, defaultRoot: Path, t: Tree, hostname: string, name: string)
    requires IterSnapshots(env, defaultRoot, t, hostname).Some?
    requires var h := SnapshotsDir(env, defaultRoot, t, hostname).value;
             h.path in h.tree && IsDirAt(h.tree, Child(h.path, name))
    ensures var snaps := IterSnapshots(env, defaultRoot, t, hostname).value.snapshots;
            && |snaps| > 0
            && (name == Label(snaps[|snaps| - 1]) || Strings.Less(name, Label(snaps[|snaps| - 1])))
  {
    var h := SnapshotsDir(env, defaultRoot, t, hostname).value;
    var snaps := IterSnapshots(env, defaultRoot, t, hostname).value.snapshots;
    assert snaps == ChildDirs(h.tree, h.path);
    var i :| 0 <= i < |snaps| && snaps[i] == Child(h.path, name);
    assert Label(snaps[i]) == name;
  }
}

=== FILE: strings.dfy ===
/**
 * Python `str` behaviour the core relies on: code-point ordering (used by
 * `sorted`), ASCII case folding (`str.lower` on the flag words), substring
 * membership (`x in s`), truthiness of an optional string and decimal
 * formatting (`f"{n}"`, `f"{n:03}"`).
 */
module Strings {
  import opened Wrappers

  /** Python's `a < b` on `str`: lexicographic by code point. */
  predicate Less(a: string, b: string)
    decreases |a|
  {
    if |a| == 0 then |b| > 0
    else |b| > 0 && (a[0] < b[0] || (a[0] == b[0] && Less(a[1..], b[1..])))
  }

  lemma {:induction false} LessIrreflexive(a: string)
    ensures !Less(a, a)
    decreases |a|
  {
    if |a| > 0 {
      LessIrreflexive(a[1..]);
    }
  }

  lemma {:induction false} LessTransitive(a: string, b: string, c: string)
    requires Less(a, b) && Less(b, c)
    ensures Less(a, c)
    decreases |a|
  {
    if |a| > 0 && a[0] == b[0] && b[0] == c[0] {
      LessTransitive(a[1..], b[1..], c[1..]);
    }
  }

  lemma {:induction false} LessTotal(a: string, b: string)
    ensures a == b || Less(a, b) || Less(b, a)
    decreases |a|
  {
    if |a| > 0 && |b| > 0 && a[0] == b[0] {
      LessTotal(a[1..], b[1..]);
      if a[1..] == b[1..] {
        assert a == [a[0]] + a[1..];
        assert b == [b[0]] + b[1..];
      }
    }
  }

  /** `m` is the smallest element of `s` in code-point order. */
  predicate IsLeast(m: string, s: set<string>) {
    m in s && forall x :: x in s && x != m ==> Less(m, x)
  }

  lemma {:induction false} LeastExists(s: set<string>)
    requires s != {}
    ensures exists m :: IsLeast(m, s)
    decreases s
  {
    var x :| x in s;
    if s == {x} {
      assert IsLeast(x, s);
    } else {
      var rest := s - {x};
      LeastExists(rest);
      var m :| IsLeast(m, rest);
      LessTotal(x, m);
      if Less(x, m) {
        forall y | y in s && y != x
          ensures Less(x, y)
        {
          if y != m {
            LessTransitive(x, m, y);
          }
        }
        assert IsLeast(x, s);
      } else {
        assert IsLeast(m, s);
      }
    }
  }

  lemma LeastUnique(s: set<string>)
    ensures forall m1, m2 :: IsLeast(m1, s) && IsLeast(m2, s) ==> m1 == m2
  {
    forall m1, m2 | IsLeast(m1, s) && IsLeast(m2, s)
      ensures m1 == m2
    {
      if m1 != m2 {
        LessTransitive(m1, m2, m1);
        LessIrreflexive(m1);
      }
    }
  }

  /** Python's `sorted(s)` for a set of strings: every element once, strictly ascending. */
  function Sorted(s: set<string>): (r: seq<string>)
    ensures |r| == |s|
    ensures forall x :: x in s <==> x in r
    ensures forall i, j :: 0 <= i < j < |r| ==> Less(r[i], r[j])
    decreases s
  {
    if s == {} then []
    else
      LeastExists(s);
      LeastUnique(s);
      var m :| IsLeast(m, s);
      [m] + Sorted(s - {m})
  }

  /** The last element of a sorted set is its greatest element. */
  lemma SortedLastIsGreatest(s: set<string>)
    requires s != {}
    ensures forall x :: x in s && x != Sorted(s)[|s| - 1] ==> Less(x, Sorted(s)[|s| - 1])
  {
    var r := Sorted(s);
    forall x | x in s && x != r[|s| - 1]
      ensures Less(x, r[|s| - 1])
    {
      var i :| 0 <= i < |r| && r[i] == x;
    }
  }

  /** Python's `needle in hay` for two strings. */
  predicate IsSubstring(needle: string, hay: string)
    decreases |hay|
  {
    needle <= hay || (|hay| > 0 && IsSubstring(needle, hay[1..]))
  }

  lemma {:induction false} SubstringAt(needle: string, hay: string, i: nat)
    requires i + |needle| <= |hay| && hay[i..i + |needle|] == needle
    ensures IsSubstring(needle, hay)
    decreases i
  {
    if i > 0 {
      assert hay[1..][i - 1..i - 1 + |needle|] == hay[i..i + |needle|];
      SubstringAt(needle, hay[1..], i - 1);
    }
  }

  function LowerChar(c: char): char {
    if 'A' <= c <= 'Z' then (c as int + 32) as char else c
  }

  /** `str.lower()` restricted to ASCII letters. */
  function Lower(s: string): string {
    seq(|s|, i requires 0 <= i < |s| => LowerChar(s[i]))
  }

  predicate IsLowerCase(s: string) {
    forall i :: 0 <= i < |s| ==> !('A' <= s[i] <= 'Z')
  }

  /** Two characters are the same letter up to ASCII case. */
  predicate SameIgnoringCase(x: char, y: char) {
    || x == y
    || ('A' <= x <= 'Z' && y as int == x as int + 32)
    || ('A' <= y <= 'Z' && x as int == y as int + 32)
  }

  /** Case-insensitive equality, defined character by character. */
  predicate EqualIgnoringCase(a: string, b: string) {
    |a| == |b| && forall i :: 0 <= i < |a| ==> SameIgnoringCase(a[i], b[i])
  }

  /** Lower-casing `s` yields the lower-case word `w` exactly when `s` spells `w` in any mix of cases. */
  lemma LowerMatches(s: string, w: string)
    requires IsLowerCase(w)
    ensures Lower(s) == w <==> EqualIgnoringCase(s, w)
  {
    if EqualIgnoringCase(s, w) {
      forall i | 0 <= i < |s|
        ensures Lower(s)[i] == w[i]
      {
        assert SameIgnoringCase(s[i], w[i]);
      }
    }
    if Lower(s) == w {
      forall i | 0 <= i < |s|
        ensures SameIgnoringCase(s[i], w[i])
      {
        assert LowerChar(s[i]) == w[i];
      }
    }
  }

  /** Python truthiness of an `Optional[str]`: present and non-empty. */
  predicate IsTruthy(o: Option<string>) {
    o.Some? && o.value != ""
  }

  function DigitChar(d: nat): char
    requires d < 10
  {
    ('0' as int + d) as char
  }

  predicate IsDigits(s: string) {
    forall i :: 0 <= i < |s| ==> '0' <= s[i] <= '9'
  }

  /** The value of a string of decimal digits. */
  function DecimalValue(s: string): nat
    requires IsDigits(s)
  {
    if |s| == 0 then 0 else DecimalValue(s[..|s| - 1]) * 10 + (s[|s| - 1] as int - '0' as int)
  }

  /** `f"{n}"`: the decimal digits of `n`, without leading zeros. */
  function NatToString(n: nat): string {
    if n < 10 then [DigitChar(n)] else NatToString(n / 10) + [DigitChar(n % 10)]
  }

  /** `f"{n}"` is a non-empty string of digits without a leading zero that reads back as `n`. */
  lemma {:induction false} NatToStringDigits(n: nat)
    ensures IsDigits(NatToString(n)) && |NatToString(n)| >= 1
    ensures DecimalValue(NatToString(n)) == n
    ensures |NatToString(n)| > 1 ==> NatToString(n)[0] != '0'
    ensures n < 100 ==> |NatToString(n)| <= 2
    ensures n < 1000 ==> |NatToString(n)| <= 3
  {
    if n >= 10 {
      NatToStringDigits(n / 10);
      var r := NatToString(n);
      assert r[..|r| - 1] == NatToString(n / 10);
    }
  }

  /** `f"{n:03}"`: decimal digits of `n`, zero-padded on the left to width three. */
  function Pad3(n: nat): string {
    PadZeros(NatToString(n), 3)
  }

  /** `f"{n:03}"` is at least three digits, exactly three below 1000, and reads back as `n`. */
  lemma Pad3Digits(n: nat)
    ensures IsDigits(Pad3(n)) && |Pad3(n)| >= 3
    ensures DecimalValue(Pad3(n)) == n
    ensures n < 1000 ==> |Pad3(n)| == 3
  {
    NatToStringDigits(n);
    PadZerosDigits(NatToString(n), 3);
  }

  /** `d` with zeros added on the left up to width `w`. */
  function PadZeros(d: string, w: nat): string
    decreases w - |d|
  {
    if |d| >= w then d else PadZeros(['0'] + d, w)
  }

  /** Left-padding digits with zeros keeps them digits and keeps their value. */
  lemma {:induction false} PadZerosDigits(d: string, w: nat)
    requires IsDigits(d)
    ensures IsDigits(PadZeros(d, w)) && |PadZeros(d, w)| >= w && |PadZeros(d, w)| >= |d|
    ensures DecimalValue(PadZeros(d, w)) == DecimalValue(d)
    ensures |d| <= w ==> |PadZeros(d, w)| == w
    decreases w - |d|
  {
    if |d| < w {
      LeadingZero(d);
      PadZerosDigits(['0'] + d, w);
    }
  }

  /** A leading zero does not change a decimal value. */
  lemma {:induction false} LeadingZero(d: string)
    requires IsDigits(d)
    ensures IsDigits(['0'] + d) && DecimalValue(['0'] + d) == DecimalValue(d)
    decreases |d|
  {
    if |d| > 0 {
      var z := ['0'] + d;
      LeadingZero(d[..|d| - 1]);
      assert z[..|z| - 1] == ['0'] + d[..|d| - 1];
    }
  }
}

=== FILE: upload.dfy ===
/**
 * Acceptance of a device config pack (apps/companion/dashmaster/api/upload.py):
 * validation in a fixed order, the files written under the device's storage
 * directory, the history row, the birth-record merge, the response and the
 * `config.uploaded` event.
 */
module Upload {
  import opened Wrappers
  import opened Strings
  import opened ByteStrings
  import opened JsonValues
  import opened FileSystem
  import opened Models
  import Events

  /** The six artifact kinds of a pack; `layout` and `rules` are mandatory. */
  datatype Kind = Layout | Rules | Schema | Calibration | BoardMap | Theme

  /** The form field, schema name and key used for a kind. */
  function Name(k: Kind): string {
    match k
    case Layout => "layout"
    case Rules => "rules"
    case Schema => "schema"
    case Calibration => "calibration"
    case BoardMap => "board_map"
    case Theme => "theme"
  }

  /** The file a kind is stored in. */
  function FileName(k: Kind): string {
    match k
    case Theme => "theme.css"
    case _ => Name(k) + ".json"
  }

  const KindNames: set<string> := {"layout", "rules", "schema", "calibration", "board_map", "theme"}

  /** The library calls of the upload path, left uninterpreted. */
  datatype Services = Services(
    decodeUtf8: Bytes -> Option<string>,  // `raw.decode("utf-8")`; None when it raises
    loads: string -> Option<Json>,        // `json.loads`; None on `JSONDecodeError`
    schemaOk: (string, Json) -> bool,     // `validate(doc, schema_name=...)` does not raise
    dumps: Json -> string,                // `json.dumps(doc, indent=2)`
    sha256: Bytes -> string)              // `sha256_bytes`

  /** The multipart request: the two mandatory files, the four optional ones and the actor. */
  datatype Pack = Pack(
    layout: Bytes,
    rules: Bytes,
    schema: Option<Bytes>,
    calibration: Option<Bytes>,
    boardMap: Option<Bytes>,
    theme: Option<Bytes>,
    actor: Option<string>)

  /** The uploaded bytes of a kind, if that kind was uploaded. */
  function Raw(p: Pack, k: Kind): Option<Bytes> {
    match k
    case Layout => Some(p.layout)
    case Rules => Some(p.rules)
    case Schema => p.schema
    case Calibration => p.calibration
    case BoardMap => p.boardMap
    case Theme => p.theme
  }

  /** Why an upload is refused; `Status` is the HTTP status the caller sees. */
  datatype UploadError =
    | JsonNotUtf8(kind: Kind)          // `UnicodeDecodeError` escapes `_read_json`
    | InvalidJson(kind: Kind)
    | SchemaViolation(kind: Kind)
    | ActuatorCheckFailed              // `.get` or `in` raised on an unexpected shape
    | ActuatorMissingTimers(index: nat)
    | ThemeNotUtf8
    | StorageFailed                    // `mkdir` or `write_bytes` raised
    | DeviceNotFound
    | BirthConfigsMalformed            // `dict(...)` of the stored `configs` raised
  {
    function Status(): int {
      match this
      case InvalidJson(_) => 400
      case SchemaViolation(_) => 400
      case ActuatorMissingTimers(_) => 400
      case ThemeNotUtf8 => 400
      case DeviceNotFound => 404
      case _ => 500
    }
  }

  /** The `detail` of the actuator refusal. */
  function ActuatorDetail(index: nat): string {
    "Actuator entry " + NatToString(index) + " missing ttl_s/cooldown_s"
  }

  /** The actuator refusal mentions `ttl`, whatever the index. */
  lemma ActuatorDetailMentionsTtl(index: nat)
    ensures IsSubstring("ttl", ActuatorDetail(index))
  {
    var d := ActuatorDetail(index);
    var at := |"Actuator entry "| + |NatToString(index)| + |" missing "|;
    assert d[at..at + 3] == "ttl";
    SubstringAt("ttl", d, at);
  }

  /** `_read_json`: decode, parse, check the schema, then digest the raw bytes. */
  function ReadJson(svc: Services, raw: Bytes, k: Kind): (r: Result<(Json, string), UploadError>)
    ensures svc.decodeUtf8(raw).None? ==> r == Err(JsonNotUtf8(k))
    ensures svc.decodeUtf8(raw).Some? && svc.loads(svc.decodeUtf8(raw).value).None? ==> r == Err(InvalidJson(k))
    ensures (&& svc.decodeUtf8(raw).Some? && svc.loads(svc.decodeUtf8(raw).value).Some?
             && !svc.schemaOk(Name(k), svc.loads(svc.decodeUtf8(raw).value).value)) ==> r == Err(SchemaViolation(k))
    ensures r.Err? ==> r.error in {JsonNotUtf8(k), InvalidJson(k), SchemaViolation(k)}
    ensures r.Ok? <==> && svc.decodeUtf8(raw).Some?
                       && svc.loads(svc.decodeUtf8(raw).value).Some?
                       && svc.schemaOk(Name(k), svc.loads(svc.decodeUtf8(raw).value).value)
    ensures r.Ok? ==> r.value.0 == svc.loads(svc.decodeUtf8(raw).value).value
    ensures r.Ok? ==> r.value.1 == svc.sha256(raw)
  {
    match svc.decodeUtf8(raw)
    case None => Err(JsonNotUtf8(k))
    case Some(text) =>
      match svc.loads(text)
      case None => Err(InvalidJson(k))
      case Some(doc) =>
        if !svc.schemaOk(Name(k), doc) then Err(SchemaViolation(k))
        else Ok((doc, svc.sha256(raw)))
  }

  /** `_read_text`: decode as UTF-8, then digest the raw bytes. */
  function ReadText(svc: Services, raw: Bytes): (r: Result<(string, string), UploadError>)
    ensures r.Err? <==> svc.decodeUtf8(raw).None?
    ensures r.Err? ==> r.error == ThemeNotUtf8
    ensures r.Ok? ==> r.value == (svc.decodeUtf8(raw).value, svc.sha256(raw))
  {
    match svc.decodeUtf8(raw)
    case None => Err(ThemeNotUtf8)
    case Some(text) => Ok((text, svc.sha256(raw)))
  }

  /** An actuator entry carries both timers, as Python's `in` sees it. */
  predicate HasTimers(a: Json) {
    Contains(a, "ttl_s") == Some(true) && Contains(a, "cooldown_s") == Some(true)
  }

  datatype ActuatorCheck = AllTimed | MissingAt(index: nat) | Raised

  /** The loop over `enumerate(actuators)` from position `i` on. */
  function CheckFrom(items: seq<Json>, i: nat): (r: ActuatorCheck)
    requires i <= |items|
    ensures r.AllTimed? <==> forall j :: i <= j < |items| ==> HasTimers(items[j])
    ensures r.MissingAt? ==> && i <= r.index < |items|
                             && Contains(items[r.index], "ttl_s").Some?
                             && !HasTimers(items[r.index])
                             && forall j :: i <= j < r.index ==> HasTimers(items[j])
    ensures r.Raised? <==> exists j :: i <= j < |items| && Contains(items[j], "ttl_s").None?
                                       && forall k :: i <= k < j ==> HasTimers(items[k])
    decreases |items| - i
  {
    if i == |items| then AllTimed
    else if Contains(items[i], "ttl_s").None? then Raised
    else if !HasTimers(items[i]) then MissingAt(i)
    else CheckFrom(items, i + 1)
  }

  /** `rules.get("actuators", [])` on a rules object. */
  function Actuators(rules: map<string, Json>): Json {
    if "actuators" in rules then rules["actuators"] else Arr([])
  }

  /**
   * The actuator invariant: every entry of `rules.get("actuators", [])`
   * carries `ttl_s` and `cooldown_s`; the first entry that lacks either is
   * reported, and the check raises only where `.get`, iteration or `in`
   * raises. A rules document without `actuators` passes.
   */
  function CheckActuators(rules: Json): (r: ActuatorCheck)
    ensures rules.Obj? && "actuators" !in rules.members ==> r == AllTimed
    ensures rules.Obj? && Iterate(Actuators(rules.members)).None? ==> r == Raised
    ensures rules.Obj? && Iterate(Actuators(rules.members)).Some? ==>
              var items := Iterate(Actuators(rules.members)).value;
              && (r.AllTimed? <==> forall j :: 0 <= j < |items| ==> HasTimers(items[j]))
              && (r.MissingAt? ==> && r.index < |items|
                                   && Contains(items[r.index], "ttl_s").Some? && !HasTimers(items[r.index])
                                   && forall j :: 0 <= j < r.index ==> HasTimers(items[j]))
              && (r.Raised? <==> exists j :: 0 <= j < |items| && Contains(items[j], "ttl_s").None?
                                             && forall k :: 0 <= k < j ==> HasTimers(items[k]))
    ensures !rules.Obj? ==> r == Raised
  {
    if !rules.Obj? then Raised
    else
      match Iterate(Actuators(rules.members))
      case None => Raised
      case Some(items) => CheckFrom(items, 0)
  }

  /** A JSON document that has passed its checks, with the digest of its raw bytes. */
  datatype Validated = Validated(docs: map<Kind, Json>, theme: Option<string>, digests: map<Kind, string>)

  /** The kinds present in a pack. */
  function Uploaded(p: Pack): set<Kind> {
    set k: Kind | Raw(p, k).Some?
  }

  /**
   * The checks of an upload, in the order they run: 0 layout, 1 rules,
   * 2 actuators, 3 schema, 4 calibration, 5 board map, 6 theme.
   */
  predicate StagePasses(svc: Services, p: Pack, stage: nat) {
    match stage
    case 0 => ReadJson(svc, p.layout, Layout).Ok?
    case 1 => ReadJson(svc, p.rules, Rules).Ok?
    case 2 => var rr := ReadJson(svc, p.rules, Rules); rr.Ok? && CheckActuators(rr.value.0).AllTimed?
    case 3 => p.schema.None? || ReadJson(svc, p.schema.value, Schema).Ok?
    case 4 => p.calibration.None? || ReadJson(svc, p.calibration.value, Calibration).Ok?
    case 5 => p.boardMap.None? || ReadJson(svc, p.boardMap.value, BoardMap).Ok?
    case 6 => p.theme.None? || svc.decodeUtf8(p.theme.value).Some?
    case _ => true
  }

  /** The check at which an error arises, or a later step for errors outside validation. */
  function ErrorStage(e: UploadError): nat {
    match e
    case JsonNotUtf8(k) => KindStage(k)
    case InvalidJson(k) => KindStage(k)
    case SchemaViolation(k) => KindStage(k)
    case ActuatorCheckFailed => 2
    case ActuatorMissingTimers(_) => 2
    case ThemeNotUtf8 => 6
    case StorageFailed => 7
    case DeviceNotFound => 8
    case BirthConfigsMalformed => 9
  }

  function KindStage(k: Kind): nat {
    match k
    case Layout => 0
    case Rules => 1
    case Schema => 3
    case Calibration => 4
    case BoardMap => 5
    case Theme => 6
  }

  const ValidationStages: nat := 7

  function ReadOptional(svc: Services, raw: Option<Bytes>, k: Kind): (r: Result<Option<(Json, string)>, UploadError>)
    ensures r.Ok? <==> raw.None? || ReadJson(svc, raw.value, k).Ok?
    ensures r.Err? ==> raw.Some? && r.error == ReadJson(svc, raw.value, k).error
    ensures r.Ok? ==> (r.value.Some? <==> raw.Some?)
    ensures r.Ok? && raw.Some? ==> r.value.value == ReadJson(svc, raw.value, k).value
  {
    match raw
    case None => Ok(None)
    case Some(b) =>
      match ReadJson(svc, b, k)
      case Err(e) => Err(e)
      case Ok(v) => Ok(Some(v))
  }

  /** What the optional reads produced. */
  datatype OptionalReads = OptionalReads(
    schema: Option<(Json, string)>,
    calibration: Option<(Json, string)>,
    boardMap: Option<(Json, string)>,
    theme: Option<(string, string)>)

  /** Stages 0 to 2: the two mandatory documents and the actuator check. */
  function ReadRequired(svc: Services, p: Pack): (r: Result<((Json, string), (Json, string)), UploadError>)
    ensures r.Ok? <==> forall s :: 0 <= s < 3 ==> StagePasses(svc, p, s)
    ensures r.Err? ==> && ErrorStage(r.error) < 3
                       && !StagePasses(svc, p, ErrorStage(r.error))
                       && forall s :: 0 <= s < ErrorStage(r.error) ==> StagePasses(svc, p, s)
    ensures && ReadJson(svc, p.layout, Layout).Ok? && ReadJson(svc, p.rules, Rules).Ok?
            && CheckActuators(ReadJson(svc, p.rules, Rules).value.0).MissingAt? ==>
              r == Err(ActuatorMissingTimers(CheckActuators(ReadJson(svc, p.rules, Rules).value.0).index))
    ensures r.Ok? ==> && ReadJson(svc, p.layout, Layout).Ok? && ReadJson(svc, p.rules, Rules).Ok?
                      && r.value == (ReadJson(svc, p.layout, Layout).value, ReadJson(svc, p.rules, Rules).value)
  {
    match ReadJson(svc, p.layout, Layout)
    case Err(e) => assert !StagePasses(svc, p, 0); Err(e)
    case Ok(layout) =>
      assert StagePasses(svc, p, 0);
      match ReadJson(svc, p.rules, Rules)
      case Err(e) => assert !StagePasses(svc, p, 1); Err(e)
      case Ok(rules) =>
        assert StagePasses(svc, p, 1);
        match CheckActuators(rules.0)
        case Raised => assert !StagePasses(svc, p, 2); Err(ActuatorCheckFailed)
        case MissingAt(i) => assert !StagePasses(svc, p, 2); Err(ActuatorMissingTimers(i))
        case AllTimed =>
          assert StagePasses(svc, p, 0) && StagePasses(svc, p, 1) && StagePasses(svc, p, 2);
          Ok((layout, rules))
  }

  /** Stages 3 to 6: the optional documents and the theme, each only when uploaded. */
  function ReadOptionals(svc: Services, p: Pack): (r: Result<OptionalReads, UploadError>)
    ensures r.Ok? <==> forall s :: 3 <= s < 7 ==> StagePasses(svc, p, s)
    ensures r.Err? ==> && 3 <= ErrorStage(r.error) < 7
                       && !StagePasses(svc, p, ErrorStage(r.error))
                       && forall s :: 3 <= s < ErrorStage(r.error) ==> StagePasses(svc, p, s)
    ensures r.Ok? ==> && (r.value.schema.Some? <==> p.schema.Some?)
                      && (r.value.calibration.Some? <==> p.calibration.Some?)
                      && (r.value.boardMap.Some? <==> p.boardMap.Some?)
                      && (r.value.theme.Some? <==> p.theme.Some?)
    ensures r.Ok? && p.schema.Some? ==> ReadJson(svc, p.schema.value, Schema).Ok? && r.value.schema.value == ReadJson(svc, p.schema.value, Schema).value
    ensures r.Ok? && p.calibration.Some? ==> ReadJson(svc, p.calibration.value, Calibration).Ok? && r.value.calibration.value == ReadJson(svc, p.calibration.value, Calibration).value
    ensures r.Ok? && p.boardMap.Some? ==> ReadJson(svc, p.boardMap.value, BoardMap).Ok? && r.value.boardMap.value == ReadJson(svc, p.boardMap.value, BoardMap).value
    ensures r.Ok? && p.theme.Some? ==> ReadText(svc, p.theme.value).Ok? && r.value.theme.value == ReadText(svc, p.theme.value).value
  {
    OptionalStages(svc, p);
    OptionalValues(svc, p);
    Optionals(svc, p)
  }

  /** The optional reads in stage order; the first failure is the result. */
  function Optionals(svc: Services, p: Pack): Result<OptionalReads, UploadError> {
    match ReadOptional(svc, p.schema, Schema)
    case Err(e) => Err(e)
    case Ok(schema) =>
      match ReadOptional(svc, p.calibration, Calibration)
      case Err(e) => Err(e)
      case Ok(calibration) =>
        match ReadOptional(svc, p.boardMap, BoardMap)
        case Err(e) => Err(e)
        case Ok(boardMap) =>
          if p.theme.Some? && ReadText(svc, p.theme.value).Err? then Err(ThemeNotUtf8)
          else
            var theme := if p.theme.Some? then Some(ReadText(svc, p.theme.value).value) else None;
            Ok(OptionalReads(schema, calibration, boardMap, theme))
  }

  lemma OptionalStages(svc: Services, p: Pack)
    ensures var r := Optionals(svc, p);
            && (r.Ok? <==> forall s :: 3 <= s < 7 ==> StagePasses(svc, p, s))
            && (r.Err? ==> && 3 <= ErrorStage(r.error) < 7
                           && !StagePasses(svc, p, ErrorStage(r.error))
                           && forall s :: 3 <= s < ErrorStage(r.error) ==> StagePasses(svc, p, s))
  {
    if ReadOptional(svc, p.schema, Schema).Err? {
      assert !StagePasses(svc, p, 3);
    } else if ReadOptional(svc, p.calibration, Calibration).Err? {
      assert StagePasses(svc, p, 3) && !StagePasses(svc, p, 4);
    } else if ReadOptional(svc, p.boardMap, BoardMap).Err? {
      assert StagePasses(svc, p, 3) && StagePasses(svc, p, 4) && !StagePasses(svc, p, 5);
    } else if p.theme.Some? && ReadText(svc, p.theme.value).Err? {
      assert StagePasses(svc, p, 3) && StagePasses(svc, p, 4) && StagePasses(svc, p, 5) && !StagePasses(svc, p, 6);
    } else {
      assert StagePasses(svc, p, 3) && StagePasses(svc, p, 4) && StagePasses(svc, p, 5) && StagePasses(svc, p, 6);
    }
  }

  lemma OptionalValues(svc: Services, p: Pack)
    ensures var r := Optionals(svc, p);
            && (r.Ok? ==> && (r.value.schema.Some? <==> p.schema.Some?)
                          && (r.value.calibration.Some? <==> p.calibration.Some?)
                          && (r.value.boardMap.Some? <==> p.boardMap.Some?)
                          && (r.value.theme.Some? <==> p.theme.Some?))
            && (r.Ok? && p.schema.Some? ==> ReadJson(svc, p.schema.value, Schema).Ok? && r.value.schema.value == ReadJson(svc, p.schema.value, Schema).value)
            && (r.Ok? && p.calibration.Some? ==> ReadJson(svc, p.calibration.value, Calibration).Ok? && r.value.calibration.value == ReadJson(svc, p.calibration.value, Calibration).value)
            && (r.Ok? && p.boardMap.Some? ==> ReadJson(svc, p.boardMap.value, BoardMap).Ok? && r.value.boardMap.value == ReadJson(svc, p.boardMap.value, BoardMap).value)
            && (r.Ok? && p.theme.Some? ==> ReadText(svc, p.theme.value).Ok? && r.value.theme.value == ReadText(svc, p.theme.value).value)
  {
  }

  function Digests(layoutSha: string, rulesSha: string, o: OptionalReads): (r: map<Kind, string>)
    ensures r.Keys == {Layout, Rules} + (if o.schema.Some? then {Schema} else {})
                      + (if o.calibration.Some? then {Calibration} else {})
                      + (if o.boardMap.Some? then {BoardMap} else {})
                      + (if o.theme.Some? then {Theme} else {})
    ensures r[Layout] == layoutSha && r[Rules] == rulesSha
    ensures o.schema.Some? ==> r[Schema] == o.schema.value.1
    ensures o.calibration.Some? ==> r[Calibration] == o.calibration.value.1
    ensures o.boardMap.Some? ==> r[BoardMap] == o.boardMap.value.1
    ensures o.theme.Some? ==> r[Theme] == o.theme.value.1
  {
    var m0 := map[Layout := layoutSha, Rules := rulesSha];
    var m1 := if o.schema.Some? then m0[Schema := o.schema.value.1] else m0;
    var m2 := if o.calibration.Some? then m1[Calibration := o.calibration.value.1] else m1;
    var m3 := if o.boardMap.Some? then m2[BoardMap := o.boardMap.value.1] else m2;
    if o.theme.Some? then m3[Theme := o.theme.value.1] else m3
  }

  function Docs(layout: Json, rules: Json, o: OptionalReads): (r: map<Kind, Json>)
    ensures r.Keys == {Layout, Rules} + (if o.schema.Some? then {Schema} else {})
                      + (if o.calibration.Some? then {Calibration} else {})
                      + (if o.boardMap.Some? then {BoardMap} else {})
    ensures r[Layout] == layout && r[Rules] == rules
    ensures o.schema.Some? ==> r[Schema] == o.schema.value.0
    ensures o.calibration.Some? ==> r[Calibration] == o.calibration.value.0
    ensures o.boardMap.Some? ==> r[BoardMap] == o.boardMap.value.0
  {
    var m0 := map[Layout := layout, Rules := rules];
    var m1 := if o.schema.Some? then m0[Schema := o.schema.value.0] else m0;
    var m2 := if o.calibration.Some? then m1[Calibration := o.calibration.value.0] else m1;
    if o.boardMap.Some? then m2[BoardMap := o.boardMap.value.0] else m2
  }

  /**
   * The validation part of `upload_config_pack`: the checks run in stage
   * order and the first one that fails decides the error; nothing has been
   * written by then. On success every uploaded kind has its document (or
   * theme text) and the digest of its raw bytes.
   */
  function ValidatePack(svc: Services, p: Pack): (r: Result<Validated, UploadError>)
    ensures r.Ok? <==> forall s :: 0 <= s < ValidationStages ==> StagePasses(svc, p, s)
    ensures r.Err? ==> && ErrorStage(r.error) < ValidationStages
                       && !StagePasses(svc, p, ErrorStage(r.error))
                       && forall s :: 0 <= s < ErrorStage(r.error) ==> StagePasses(svc, p, s)
    ensures && ReadJson(svc, p.layout, Layout).Ok? && ReadJson(svc, p.rules, Rules).Ok?
            && CheckActuators(ReadJson(svc, p.rules, Rules).value.0).MissingAt? ==>
              r == Err(ActuatorMissingTimers(CheckActuators(ReadJson(svc, p.rules, Rules).value.0).index))
    ensures r.Ok? ==> r.value.digests.Keys == Uploaded(p)
    ensures r.Ok? ==> forall k :: k in Uploaded(p) ==> r.value.digests[k] == svc.sha256(Raw(p, k).value)
    ensures r.Ok? ==> forall k :: k in r.value.docs <==> k in Uploaded(p) && k != Theme
    ensures r.Ok? ==> forall k :: k in r.value.docs ==>
              (&& Raw(p, k).Some? && ReadJson(svc, Raw(p, k).value, k).Ok?
               && r.value.docs[k] == ReadJson(svc, Raw(p, k).value, k).value.0)
    ensures r.Ok? ==> (r.value.theme.Some? <==> p.theme.Some?)
    ensures r.Ok? && p.theme.Some? ==> svc.decodeUtf8(p.theme.value).Some? && r.value.theme.value == svc.decodeUtf8(p.theme.value).value
  {
    match ReadRequired(svc, p)
    case Err(e) => Err(e)
    case Ok((layout, rules)) =>
      match ReadOptionals(svc, p)
      case Err(e) => Err(e)
      case Ok(o) =>
        var text := if o.theme.Some? then Some(o.theme.value.0) else None;
        var v := Validated(Docs(layout.0, rules.0, o), text, Digests(layout.1, rules.1, o));
        ReadsAgreeHold(svc, p, layout, rules, o);
        DigestsShape(svc, p, layout, rules, o);
        DocsShape(svc, p, layout, rules, o);
        Ok(v)
  }

  /** The collected digests are keyed by exactly the uploaded kinds, each the SHA-256 of that kind's raw bytes. */
  lemma DigestsShape(svc: Services, p: Pack, layout: (Json, string), rules: (Json, string), o: OptionalReads)
    requires ReadsAgree(svc, p, layout, rules, o)
    ensures var d := Digests(layout.1, rules.1, o);
            && d.Keys == Uploaded(p)
            && forall k :: k in Uploaded(p) ==> d[k] == svc.sha256(Raw(p, k).value)
  {
    forall k | true
      ensures k in Digests(layout.1, rules.1, o) <==> k in Uploaded(p)
      ensures k in Digests(layout.1, rules.1, o) ==> Digests(layout.1, rules.1, o)[k] == svc.sha256(Raw(p, k).value)
    {
      DigestOf(svc, p, layout, rules, o, k);
    }
  }

  /** The collected documents are keyed by exactly the uploaded JSON kinds, each what `_read_json` returned. */
  lemma DocsShape(svc: Services, p: Pack, layout: (Json, string), rules: (Json, string), o: OptionalReads)
    requires ReadsAgree(svc, p, layout, rules, o)
    ensures var docs := Docs(layout.0, rules.0, o);
            && (forall k :: k in docs <==> k in Uploaded(p) && k != Theme)
            && forall k :: k in docs ==> && Raw(p, k).Some? && ReadJson(svc, Raw(p, k).value, k).Ok?
                                         && docs[k] == ReadJson(svc, Raw(p, k).value, k).value.0
  {
    forall k | true
      ensures k in Docs(layout.0, rules.0, o) <==> k in Uploaded(p) && k != Theme
      ensures k in Docs(layout.0, rules.0, o) ==> && Raw(p, k).Some? && ReadJson(svc, Raw(p, k).value, k).Ok?
                                                  && Docs(layout.0, rules.0, o)[k] == ReadJson(svc, Raw(p, k).value, k).value.0
    {
      DocOf(svc, p, layout, rules, o, k);
    }
  }

  /** Each read result is what reading that kind's uploaded bytes gives. */
  predicate ReadsAgree(svc: Services, p: Pack, layout: (Json, string), rules: (Json, string), o: OptionalReads) {
    && ReadJson(svc, p.layout, Layout) == Ok(layout)
    && ReadJson(svc, p.rules, Rules) == Ok(rules)
    && (o.schema.Some? <==> p.schema.Some?)
    && (p.schema.Some? ==> ReadJson(svc, p.schema.value, Schema) == Ok(o.schema.value))
    && (o.calibration.Some? <==> p.calibration.Some?)
    && (p.calibration.Some? ==> ReadJson(svc, p.calibration.value, Calibration) == Ok(o.calibration.value))
    && (o.boardMap.Some? <==> p.boardMap.Some?)
    && (p.boardMap.Some? ==> ReadJson(svc, p.boardMap.value, BoardMap) == Ok(o.boardMap.value))
    && (o.theme.Some? <==> p.theme.Some?)
    && (p.theme.Some? ==> ReadText(svc, p.theme.value) == Ok(o.theme.value))
  }

  lemma ReadsAgreeHold(svc: Services, p: Pack, layout: (Json, string), rules: (Json, string), o: OptionalReads)
    requires ReadRequired(svc, p) == Ok((layout, rules))
    requires ReadOptionals(svc, p) == Ok(o)
    ensures ReadsAgree(svc, p, layout, rules, o)
  {
  }

  lemma DigestOf(svc: Services, p: Pack, layout: (Json, string), rules: (Json, string), o: OptionalReads, k: Kind)
    requires ReadsAgree(svc, p, layout, rules, o)
    ensures k in Digests(layout.1, rules.1, o) <==> Raw(p, k).Some?
    ensures k in Digests(layout.1, rules.1, o) ==> Digests(layout.1, rules.1, o)[k] == svc.sha256(Raw(p, k).value)
  {
    var d := Digests(layout.1, rules.1, o);
    match k
    case Layout =>
    case Rules =>
    case Schema =>
    case Calibration =>
    case BoardMap =>
    case Theme =>
  }

  lemma DocOf(svc: Services, p: Pack, layout: (Json, string), rules: (Json, string), o: OptionalReads, k: Kind)
    requires ReadsAgree(svc, p, layout, rules, o)
    ensures k in Docs(layout.0, rules.0, o) <==> Raw(p, k).Some? && k != Theme
    ensures k in Docs(layout.0, rules.0, o) ==> && Raw(p, k).Some? && ReadJson(svc, Raw(p, k).value, k).Ok?
                                                && Docs(layout.0, rules.0, o)[k] == ReadJson(svc, Raw(p, k).value, k).value.0
  {
    var d := Docs(layout.0, rules.0, o);
    match k
    case Layout =>
    case Rules =>
    case Schema =>
    case Calibration =>
    case BoardMap =>
    case Theme =>
  }

  const AllKinds: seq<Kind> := [Layout, Rules, Schema, Calibration, BoardMap, Theme]

  /**
   * A file is written for `k`: layout and rules always; an optional JSON
   * kind when its validated document is not `null` (the `is not None`
   * guards); the theme when its text was read.
   */
  predicate Present(v: Validated, k: Kind) {
    || (k in v.docs && (k == Layout || k == Rules || v.docs[k] != Null))
    || (k == Theme && v.theme.Some?)
  }

  /** The bytes written for `k`: the re-serialised document, or the theme text, as UTF-8. */
  function Content(svc: Services, v: Validated, k: Kind): Bytes
    requires Present(v, k)
  {
    if k in v.docs then Utf8Encode(svc.dumps(v.docs[k])) else Utf8Encode(v.theme.value)
  }

  function PresentKinds(v: Validated, ks: seq<Kind>): (r: seq<Kind>)
    requires forall i, j :: 0 <= i < j < |ks| ==> ks[i] != ks[j]
    ensures forall i, j :: 0 <= i < j < |r| ==> r[i] != r[j]
    ensures forall k :: k in r <==> k in ks && Present(v, k)
  {
    if |ks| == 0 then []
    else
      var rest := PresentKinds(v, ks[1..]);
      if Present(v, ks[0]) then [ks[0]] + rest else rest
  }

  lemma FileNameInjective(a: Kind, b: Kind)
    ensures FileName(a) == FileName(b) ==> a == b
  {
    if a != b {
      match a
      case Layout => assert FileName(a)[0] == 'l';
      case Rules => assert FileName(a)[0] == 'r';
      case Schema => assert FileName(a)[1] == 'c';
      case Calibration => assert FileName(a)[1] == 'a';
      case BoardMap => assert FileName(a)[0] == 'b';
      case Theme => assert FileName(a)[|FileName(a)| - 1] == 's';
    }
  }

  /**
   * The files `upload_config_pack` writes, in the order it lists them: one
   * per validated kind, under distinct names.
   */
  function Files(svc: Services, v: Validated): (r: seq<(string, Bytes)>)
    ensures forall i, j :: 0 <= i < j < |r| ==> r[i].0 != r[j].0
    ensures forall k :: Present(v, k) ==> (FileName(k), Content(svc, v, k)) in r
    ensures forall i :: 0 <= i < |r| ==> exists k :: Present(v, k) && r[i] == (FileName(k), Content(svc, v, k))
  {
    var ks := PresentKinds(v, AllKinds);
    var r := FilesFor(svc, v, ks);
    FilesDistinct(svc, v);
    FilesComplete(svc, v);
    assert forall i :: 0 <= i < |r| ==> Present(v, ks[i]) && r[i] == (FileName(ks[i]), Content(svc, v, ks[i]));
    r
  }

  /**
   * An optional document that parsed to `null` gets no file, so whatever
   * file of that name was stored before is left alone.
   */
  lemma NullDocumentNotWritten(svc: Services, v: Validated, k: Kind)
    requires k in {Schema, Calibration, BoardMap} && k in v.docs && v.docs[k] == Null
    ensures forall i :: 0 <= i < |Files(svc, v)| ==> Files(svc, v)[i].0 != FileName(k)
  {
    var ks := PresentKinds(v, AllKinds);
    NoFileFor(svc, v, ks, k);
  }

  /** A kind left out of `ks` names none of the files listed for `ks`. */
  lemma NoFileFor(svc: Services, v: Validated, ks: seq<Kind>, k: Kind)
    requires forall k' :: k' in ks ==> Present(v, k')
    requires k !in ks
    ensures forall i :: 0 <= i < |FilesFor(svc, v, ks)| ==> FilesFor(svc, v, ks)[i].0 != FileName(k)
  {
    forall i | 0 <= i < |ks| ensures FileName(ks[i]) != FileName(k) {
      FileNameInjective(k, ks[i]);
    }
  }

  /** One `(file name, content)` pair per kind of `ks`, in that order. */
  function FilesFor(svc: Services, v: Validated, ks: seq<Kind>): seq<(string, Bytes)>
    requires forall k :: k in ks ==> Present(v, k)
  {
    seq(|ks|, i requires 0 <= i < |ks| => (FileName(ks[i]), Content(svc, v, ks[i])))
  }

  lemma FilesDistinct(svc: Services, v: Validated)
    ensures var r := FilesFor(svc, v, PresentKinds(v, AllKinds));
            forall i, j :: 0 <= i < j < |r| ==> r[i].0 != r[j].0
  {
    var ks := PresentKinds(v, AllKinds);
    var r := FilesFor(svc, v, ks);
    forall i, j | 0 <= i < j < |r| ensures r[i].0 != r[j].0 {
      FileNameInjective(ks[i], ks[j]);
    }
  }

  lemma FilesComplete(svc: Services, v: Validated)
    ensures var r := FilesFor(svc, v, PresentKinds(v, AllKinds));
            forall k :: Present(v, k) ==> (FileName(k), Content(svc, v, k)) in r
  {
    var ks := PresentKinds(v, AllKinds);
    var r := FilesFor(svc, v, ks);
    forall k | Present(v, k) ensures (FileName(k), Content(svc, v, k)) in r {
      assert k in AllKinds by { assert AllKinds[KindStage(k) - if KindStage(k) > 2 then 1 else 0] == k; }
      var i :| 0 <= i < |ks| && ks[i] == k;
      assert r[i] == (FileName(k), Content(svc, v, k));
    }
  }

  /** The paths `_write_files` may write. */
  function Targets(dir: Path, files: seq<(string, Bytes)>): set<Path> {
    set i | 0 <= i < |files| :: Child(dir, files[i].0)
  }

  /**
   * `_write_files`: each file is written into `dir` in turn; the first write
   * that fails stops the loop, and the files written before it stay.
   * Returns the tree and whether every write succeeded.
   */
  function WriteFiles(t: Tree, dir: Path, files: seq<(string, Bytes)>): (Tree, bool)
    decreases |files|
  {
    if |files| == 0 then (t, true)
    else
      var (name, content) := files[0];
      match WriteFile(t, Child(dir, name), content)
      case None => (t, false)
      case Some(t1) => WriteFiles(t1, dir, files[1..])
  }

  /**
   * For distinct file names, `_write_files` succeeds iff every target can be
   * written; then each file holds its content. No path outside the targets
   * changes, and nothing is removed, even when a write fails.
   */
  lemma {:induction false} WriteFilesSpec(t: Tree, dir: Path, files: seq<(string, Bytes)>)
    requires forall i, j :: 0 <= i < j < |files| ==> files[i].0 != files[j].0
    ensures var r := WriteFiles(t, dir, files);
            && (r.1 <==> forall i :: 0 <= i < |files| ==> CanWrite(t, Child(dir, files[i].0)))
            && (r.1 ==> forall i :: 0 <= i < |files| ==> Child(dir, files[i].0) in r.0 && r.0[Child(dir, files[i].0)] == File(files[i].1))
            && (forall q :: q !in Targets(dir, files) ==> (q in r.0 <==> q in t) && (q in t ==> r.0[q] == t[q]))
            && t.Keys <= r.0.Keys
    decreases |files|
  {
    if |files| > 0 && CanWrite(t, Child(dir, files[0].0)) {
      var rest := files[1..];
      var t1 := t[Child(dir, files[0].0) := File(files[0].1)];
      WriteStep(t, dir, files);
      WriteFilesSpec(t1, dir, rest);
      assert WriteFiles(t, dir, files) == WriteFiles(t1, dir, rest);
      assert forall i :: 1 <= i < |files| ==> files[i] == rest[i - 1];
    }
  }

  lemma WriteStep(t: Tree, dir: Path, files: seq<(string, Bytes)>)
    requires |files| > 0 && CanWrite(t, Child(dir, files[0].0))
    requires forall i, j :: 0 <= i < j < |files| ==> files[i].0 != files[j].0
    ensures var t1 := t[Child(dir, files[0].0) := File(files[0].1)];
            && (forall i :: 1 <= i < |files| ==> (CanWrite(t1, Child(dir, files[i].0)) <==> CanWrite(t, Child(dir, files[i].0))))
            && (forall i :: 1 <= i < |files| ==> Child(dir, files[i].0) != Child(dir, files[0].0))
            && Targets(dir, files) == {Child(dir, files[0].0)} + Targets(dir, files[1..])
            && Child(dir, files[0].0) !in Targets(dir, files[1..])
  {
    var c := Child(dir, files[0].0);
    forall i | 1 <= i < |files| ensures Child(dir, files[i].0) != c {
      assert Child(dir, files[i].0).parts[|dir.parts|] == files[i].0;
    }
    forall i | 1 <= i < |files|
      ensures CanWrite(t[c := File(files[0].1)], Child(dir, files[i].0)) <==> CanWrite(t, Child(dir, files[i].0))
    {
      assert Parent(Child(dir, files[i].0)) == dir;
      assert |c.parts| != |dir.parts|;
    }
    TargetsStep(dir, files);
    FirstTargetFresh(dir, files);
  }

  /** With distinct names, the first file's path is none of the later files' paths. */
  lemma FirstTargetFresh(dir: Path, files: seq<(string, Bytes)>)
    requires |files| > 0
    requires forall i, j :: 0 <= i < j < |files| ==> files[i].0 != files[j].0
    ensures Child(dir, files[0].0) !in Targets(dir, files[1..])
  {
    var rest := files[1..];
    forall q | q in Targets(dir, rest) ensures q != Child(dir, files[0].0) {
      var i :| 0 <= i < |rest| && q == Child(dir, rest[i].0);
      assert rest[i] == files[i + 1];
      assert q.parts[|dir.parts|] == files[i + 1].0;
    }
  }

  lemma TargetsStep(dir: Path, files: seq<(string, Bytes)>)
    requires |files| > 0
    ensures Targets(dir, files) == {Child(dir, files[0].0)} + Targets(dir, files[1..])
  {
    var rest := files[1..];
    forall q | q in Targets(dir, files) ensures q in {Child(dir, files[0].0)} + Targets(dir, rest) {
      var i :| 0 <= i < |files| && q == Child(dir, files[i].0);
      if i > 0 { assert rest[i - 1] == files[i]; }
    }
    forall q | q in Targets(dir, rest) ensures q in Targets(dir, files) {
      var i :| 0 <= i < |rest| && q == Child(dir, rest[i].0);
      assert rest[i] == files[i + 1];
    }
  }

  /** `dict(birth.json.get("configs", {}))` for the JSON shapes `dict` accepts without pairs. */
  function ConfigsOf(birth: Birth): (r: Option<map<string, Json>>)
    ensures "configs" !in birth ==> r == Some(map[])
    ensures "configs" in birth && birth["configs"].Obj? ==> r == Some(birth["configs"].members)
    ensures r.None? <==> "configs" in birth && !birth["configs"].Obj?
                         && birth["configs"] != Arr([]) && birth["configs"] != Str("")
  {
    if "configs" !in birth then Some(map[])
    else
      match birth["configs"]
      case Obj(m) => Some(m)
      case Arr(items) => if |items| == 0 then Some(map[]) else None
      case Str(text) => if |text| == 0 then Some(map[]) else None
      case _ => None
  }

  /** The birth document created for a device that has none. */
  function FreshBirth(hostname: string): Birth {
    map["device_id" := Str(hostname), "configs" := Obj(map[])]
  }

  /** The digests that `configs.update(...)` writes: the mandatory two always, the others when truthy. */
  function ConfigUpdates(digests: map<Kind, string>): (r: map<string, Json>)
    requires Layout in digests && Rules in digests
    ensures r.Keys <= KindNames
    ensures "layout" in r && "rules" in r
    ensures forall k :: Name(k) in r <==> k in digests && (k in {Layout, Rules} || digests[k] != "")
    ensures forall k :: k in digests && Name(k) in r ==> r[Name(k)] == Str(digests[k])
  {
    ConfigUpdatesSpec(digests);
    Updates(digests)
  }

  /** One entry per kind that is mandatory or has a non-empty digest, under the kind's name. */
  function Updates(digests: map<Kind, string>): map<string, Json> {
    NamesDistinct();
    map k: Kind | k in digests && (k in {Layout, Rules} || digests[k] != "") :: Name(k) := Str(digests[k])
  }

  lemma ConfigUpdatesSpec(digests: map<Kind, string>)
    requires Layout in digests && Rules in digests
    ensures var r := Updates(digests);
            && r.Keys <= KindNames
            && "layout" in r && "rules" in r
            && (forall k :: Name(k) in r <==> k in digests && (k in {Layout, Rules} || digests[k] != ""))
            && forall k :: k in digests && Name(k) in r ==> r[Name(k)] == Str(digests[k])
  {
    NamesDistinct();
    var r := Updates(digests);
    assert Name(Layout) in r && Name(Rules) in r;
  }

  lemma NamesDistinct()
    ensures forall a: Kind, b: Kind :: Name(a) == Name(b) ==> a == b
  {
    forall a: Kind, b: Kind ensures Name(a) == Name(b) ==> a == b {
      NameInjective(a, b);
    }
  }

  lemma NameInjective(a: Kind, b: Kind)
    ensures Name(a) == Name(b) ==> a == b
  {
    if a != b && Name(a) == Name(b) {
      FileNameInjective(a, b);
    }
  }

  /**
   * The birth-record merge of `_record`: a missing record starts as
   * `{"device_id": hostname, "configs": {}}`; the stored `configs` are kept
   * and the new digests overwrite their own keys; every other top-level key
   * of the record is kept. A `configs` value `dict` rejects aborts the
   * transaction.
   */
  function MergeBirth(existing: Option<Birth>, hostname: string, digests: map<Kind, string>): (r: Result<Birth, UploadError>)
    requires Layout in digests && Rules in digests
    ensures existing.None? ==> r.Ok?
    ensures r.Ok? <==> ConfigsOf(existing.GetOr(FreshBirth(hostname))).Some?
    ensures r.Err? ==> r.error == BirthConfigsMalformed
    ensures r.Ok? ==> var base := existing.GetOr(FreshBirth(hostname));
                      && r.value.Keys == base.Keys + {"configs"}
                      && (forall key :: key in base && key != "configs" ==> r.value[key] == base[key])
                      && r.value["configs"].Obj?
    ensures r.Ok? ==> var base := existing.GetOr(FreshBirth(hostname));
                      var configs := r.value["configs"].members;
                      && ConfigsOf(base).Some?
                      && configs.Keys == ConfigsOf(base).value.Keys + ConfigUpdates(digests).Keys
                      && (forall key :: key in configs && key !in ConfigUpdates(digests) ==> configs[key] == ConfigsOf(base).value[key])
                      && (forall key :: key in ConfigUpdates(digests) ==> configs[key] == ConfigUpdates(digests)[key])
  {
    var base := existing.GetOr(FreshBirth(hostname));
    match ConfigsOf(base)
    case None => Err(BirthConfigsMalformed)
    case Some(configs) => Ok(base["configs" := Obj(configs + ConfigUpdates(digests))])
  }

  /** The stored birth record of `hostname`, if any, has `configs` that `dict` accepts. */
  predicate Mergeable(births: map<string, Birth>, hostname: string) {
    hostname !in births || ConfigsOf(births[hostname]).Some?
  }

  /** The database side of an upload: device rows, config history and birth records. */
  datatype Db = Db(devices: seq<Device>, history: seq<HistoryRow>, births: map<string, Birth>)

  /** The `config_history` row of an upload; `note` is left unset. */
  function HistoryFor(hostname: string, digests: map<Kind, string>, actor: Option<string>): HistoryRow {
    HistoryRow(hostname,
      Get(digests, Layout), Get(digests, Rules), Get(digests, Schema),
      Get(digests, Calibration), Get(digests, BoardMap), Get(digests, Theme),
      actor, None)
  }

  /**
   * `_record`: 404 for an unknown hostname; otherwise one history row is
   * added and the birth record merged, committed together. Any failure
   * leaves the database as it was.
   */
  function Record(db: Db, hostname: string, digests: map<Kind, string>, actor: Option<string>): (r: Result<Db, UploadError>)
    requires Layout in digests && Rules in digests
    ensures r == Err(DeviceNotFound) <==> hostname !in Hostnames(db.devices)
    ensures r.Err? ==> r.error in {DeviceNotFound, BirthConfigsMalformed}
    ensures r.Ok? <==> hostname in Hostnames(db.devices) && Mergeable(db.births, hostname)
    ensures r.Ok? ==> && hostname in Hostnames(db.devices)
                      && r.value.devices == db.devices
                      && r.value.history == db.history + [HistoryFor(hostname, digests, actor)]
                      && r.value.births.Keys == db.births.Keys + {hostname}
                      && (forall h :: h in db.births && h != hostname ==> r.value.births[h] == db.births[h])
    ensures r.Ok? ==> MergeBirth(Get(db.births, hostname), hostname, digests) == Ok(r.value.births[hostname])
  {
    if FindHostname(db.devices, hostname).None? then Err(DeviceNotFound)
    else
      var merged := MergeBirth(Get(db.births, hostname), hostname, digests);
      if merged.Err? then Err(BirthConfigsMalformed)
      else Ok(Committed(db, hostname, HistoryFor(hostname, digests, actor), merged.value))
  }

  /** The transaction's writes: the history row appended and the birth record stored under `hostname`. */
  function Committed(db: Db, hostname: string, row: HistoryRow, birth: Birth): (r: Db)
    ensures r.devices == db.devices && r.history == db.history + [row]
    ensures r.births.Keys == db.births.Keys + {hostname} && r.births[hostname] == birth
    ensures forall h :: h in db.births && h != hostname ==> r.births[h] == db.births[h]
  {
    Db(db.devices, db.history + [row], db.births[hostname := birth])
  }

  /** The `hashes` of the response: one entry per kind, its digest or nothing. */
  function Hashes(digests: map<Kind, string>): (r: map<Kind, Option<string>>)
    ensures forall k :: k in r && (r[k].Some? <==> k in digests)
    ensures forall k :: k in digests ==> r[k] == Some(digests[k])
  {
    map k: Kind | true :: Get(digests, k)
  }

  datatype UploadResult = UploadResult(device: string, hashes: map<Kind, Option<string>>)

  /** A hash as JSON: the digest string, or null when the kind was not uploaded. */
  function HashJson(hashes: map<Kind, Option<string>>, k: Kind): Json {
    if k in hashes && hashes[k].Some? then Str(hashes[k].value) else Null
  }

  /**
   * The `config.uploaded` payload `{"hostname": ..., **hashes}`: the
   * hostname and one entry per kind, named as in the response.
   */
  function EventPayload(result: UploadResult): (r: map<string, Json>)
    ensures r.Keys == {"hostname"} + KindNames
    ensures r["hostname"] == Str(result.device)
    ensures forall k :: r[Name(k)] == HashJson(result.hashes, k)
  {
    var h := result.hashes;
    map["hostname" := Str(result.device),
        Name(Layout) := HashJson(h, Layout), Name(Rules) := HashJson(h, Rules),
        Name(Schema) := HashJson(h, Schema), Name(Calibration) := HashJson(h, Calibration),
        Name(BoardMap) := HashJson(h, BoardMap), Name(Theme) := HashJson(h, Theme)]
  }

  const UploadedEvent := "config.uploaded"

  /** Everything an upload can touch. */
  datatype State = State(tree: Tree, db: Db, bus: Events.Bus)

  datatype Outcome =
    | Rejected(error: UploadError, state: State)
    | Accepted(state: State, result: UploadResult)

  /** `q` is the file `_write_files` writes for some kind of `v` in `dir`. */
  predicate IsWritten(v: Validated, dir: Path, q: Path) {
    exists k :: Present(v, k) && q == Child(dir, FileName(k))
  }

  /**
   * From `t` to `t2` only the upload's own paths change: every other entry
   * keeps its content, and every new entry is the directory `dir`, one of
   * its ancestors, or a file written for a kind of `v`.
   */
  predicate OnlyUploadChanges(v: Validated, dir: Path, t: Tree, t2: Tree) {
    && (forall q :: q in t && !IsWritten(v, dir, q) ==> q in t2 && t2[q] == t[q])
    && (forall q :: q in t2 && q !in t ==> IsAncestorOrSelf(q, dir) || IsWritten(v, dir, q))
  }

  /**
   * `_ensure_storage_dir` then `_write_files`: the tree afterwards and
   * whether both succeeded. A directory failure changes nothing; every
   * existing entry survives, and only the upload's own files change, even
   * when a write fails; on success each validated kind has its file.
   */
  function Store(svc: Services, v: Validated, t: Tree, dir: Path): (r: (Tree, bool))
    ensures MakeDirs(t, dir).None? ==> r == (t, false)
    ensures t.Keys <= r.0.Keys
    ensures OnlyUploadChanges(v, dir, t, r.0)
    ensures r.1 ==> forall k :: Present(v, k) ==>
              Child(dir, FileName(k)) in r.0 && r.0[Child(dir, FileName(k))] == File(Content(svc, v, k))
  {
    match MakeDirs(t, dir)
    case None => (t, false)
    case Some(t1) =>
      var files := Files(svc, v);
      var written := WriteFiles(t1, dir, files);
      WriteFilesSpec(t1, dir, files);
      WrittenFiles(svc, v, t1, dir);
      StoreFrame(svc, v, t, t1, dir);
      written
  }

  /** The frame of `Store`: the directory creation and the writes touch only the upload's own paths. */
  lemma StoreFrame(svc: Services, v: Validated, t: Tree, t1: Tree, dir: Path)
    requires MakeDirs(t, dir) == Some(t1)
    ensures OnlyUploadChanges(v, dir, t, WriteFiles(t1, dir, Files(svc, v)).0)
  {
    var files := Files(svc, v);
    var t2 := WriteFiles(t1, dir, files).0;
    WriteFilesSpec(t1, dir, files);
    forall q | q in Targets(dir, files) ensures IsWritten(v, dir, q) {
      var i :| 0 <= i < |files| && q == Child(dir, files[i].0);
      assert exists k :: Present(v, k) && files[i] == (FileName(k), Content(svc, v, k));
    }
  }

  /** After a complete `_write_files`, each validated kind's file holds its content. */
  lemma WrittenFiles(svc: Services, v: Validated, t: Tree, dir: Path)
    ensures var written := WriteFiles(t, dir, Files(svc, v));
            written.1 ==> forall k :: Present(v, k) ==>
              Child(dir, FileName(k)) in written.0 && written.0[Child(dir, FileName(k))] == File(Content(svc, v, k))
  {
    var files := Files(svc, v);
    var written := WriteFiles(t, dir, files);
    WriteFilesSpec(t, dir, files);
    if written.1 {
      forall k | Present(v, k)
        ensures Child(dir, FileName(k)) in written.0 && written.0[Child(dir, FileName(k))] == File(Content(svc, v, k))
      {
        var i :| 0 <= i < |files| && files[i] == (FileName(k), Content(svc, v, k));
      }
    }
  }

  /**
   * `_record` followed by the publish, with the files already in `tree`:
   * a failed record leaves the database and the bus as they were.
   */
  function Finish(s: State, tree: Tree, hostname: string, digests: map<Kind, string>, actor: Option<string>): (r: Outcome)
    requires Layout in digests && Rules in digests
    ensures r.state.tree == tree
    ensures r.Rejected? ==> r.state.db == s.db && r.state.bus == s.bus
    ensures r.Rejected? ==> r.error in {DeviceNotFound, BirthConfigsMalformed}
    ensures r.Accepted? ==> && r.result == UploadResult(hostname, Hashes(digests))
                            && r.state.bus == Events.Publish(s.bus, UploadedEvent, EventPayload(r.result))
                            && Record(s.db, hostname, digests, actor) == Ok(r.state.db)
  {
    var recorded := Record(s.db, hostname, digests, actor);
    if recorded.Err? then Rejected(recorded.error, s.(tree := tree))
    else
      var result := UploadResult(hostname, Hashes(digests));
      Accepted(State(tree, recorded.value, Events.Publish(s.bus, UploadedEvent, EventPayload(result))), result)
  }

  /**
   * The steps of `upload_config_pack` after validation: create the device
   * directory, write the files, record the upload, publish `config.uploaded`.
   */
  function Commit(svc: Services, v: Validated, root: Path, s: State, hostname: string, actor: Option<string>): (r: Outcome)
    requires Layout in v.digests && Rules in v.digests
    ensures MakeDirs(s.tree, Join(root, hostname)).None? ==> r == Rejected(StorageFailed, s)
    ensures r.Rejected? ==> r.state.db == s.db && r.state.bus == s.bus
    ensures r.Rejected? ==> s.tree.Keys <= r.state.tree.Keys
    ensures OnlyUploadChanges(v, Join(root, hostname), s.tree, r.state.tree)
    ensures r.Accepted? ==> && hostname in Hostnames(s.db.devices)
                            && r.result == UploadResult(hostname, Hashes(v.digests))
                            && r.state.bus == Events.Publish(s.bus, UploadedEvent, EventPayload(r.result))
                            && Record(s.db, hostname, v.digests, actor) == Ok(r.state.db)
    ensures r.Accepted? ==> forall k :: Present(v, k) ==>
                              Child(Join(root, hostname), FileName(k)) in r.state.tree
                              && r.state.tree[Child(Join(root, hostname), FileName(k))] == File(Content(svc, v, k))
  {
    var stored := Store(svc, v, s.tree, Join(root, hostname));
    if !stored.1 then Rejected(StorageFailed, s.(tree := stored.0))
    else Finish(s, stored.0, hostname, v.digests, actor)
  }

  /**
   * `upload_config_pack` for `hostname` with storage root `root`: validate,
   * then commit. A validation failure changes nothing; a directory failure
   * changes nothing; a failed write or a failed record keeps the files
   * written so far but leaves the database and the bus as they were.
   */
  function UploadConfigPack(svc: Services, root: Path, s: State, hostname: string, p: Pack): (r: Outcome)
    ensures ValidatePack(svc, p).Err? ==> r == Rejected(ValidatePack(svc, p).error, s)
    ensures ValidatePack(svc, p).Ok? ==> r == Commit(svc, ValidatePack(svc, p).value, root, s, hostname, p.actor)
    ensures r.Rejected? ==> r.state.db == s.db && r.state.bus == s.bus
    ensures r.Accepted? ==> && r.result.device == hostname
                            && forall k :: && k in r.result.hashes
                                           && (r.result.hashes[k].Some? <==> Raw(p, k).Some?)
                                           && (Raw(p, k).Some? ==> r.result.hashes[k] == Some(svc.sha256(Raw(p, k).value)))
  {
    var validated := ValidatePack(svc, p);
    if validated.Err? then Rejected(validated.error, s)
    else
      assert Layout in Uploaded(p) && Rules in Uploaded(p);
      PackHashes(svc, p);
      Commit(svc, validated.value, root, s, hostname, p.actor)
  }

  /** The hashes of a validated pack: one per kind, present exactly for the uploaded kinds. */
  lemma PackHashes(svc: Services, p: Pack)
    requires ValidatePack(svc, p).Ok?
    ensures var hashes := Hashes(ValidatePack(svc, p).value.digests);
            forall k :: && k in hashes
                        && (hashes[k].Some? <==> Raw(p, k).Some?)
                        && (Raw(p, k).Some? ==> hashes[k] == Some(svc.sha256(Raw(p, k).value)))
  {
    var digests := ValidatePack(svc, p).value.digests;
    forall k ensures k in digests <==> Raw(p, k).Some? {
      assert k in Uploaded(p) <==> Raw(p, k).Some?;
    }
  }
}


=== FILE: upload_properties.dfy ===
/** Properties of a config upload taken as a whole (apps/companion/dashmaster/api/upload.py). */
module UploadProperties {
  import opened Wrappers
  import opened Strings
  import opened JsonValues
  import opened FileSystem
  import opened Models
  import opened Upload
  import Events

  /**
   * A rules document whose actuator `i` lacks `ttl_s` or `cooldown_s` (all
   * earlier ones being complete) is refused with status 400 and a detail
   * mentioning `ttl`, before anything is written or recorded. The entry may
   * be anything Python's `in` accepts: an object, a list or a string.
   */
  lemma MissingTimerRejected(svc: Services, root: Path, s: State, hostname: string, p: Pack, items: seq<Json>, i: nat)
    requires ReadJson(svc, p.layout, Layout).Ok? && ReadJson(svc, p.rules, Rules).Ok?
    requires var rules := ReadJson(svc, p.rules, Rules).value.0;
             rules.Obj? && Iterate(Actuators(rules.members)) == Some(items)
    requires i < |items| && Contains(items[i], "ttl_s").Some? && !HasTimers(items[i])
    requires forall j :: 0 <= j < i ==> HasTimers(items[j])
    ensures UploadConfigPack(svc, root, s, hostname, p) == Rejected(ActuatorMissingTimers(i), s)
    ensures ActuatorMissingTimers(i).Status() == 400
    ensures IsSubstring("ttl", ActuatorDetail(i))
  {
    CheckFromFindsFirst(items, 0, i);
    ActuatorDetailMentionsTtl(i);
  }

  /** The actuator loop stops at the first entry that is a container lacking a timer. */
  lemma {:induction false} CheckFromFindsFirst(items: seq<Json>, start: nat, i: nat)
    requires start <= i < |items|
    requires forall j :: start <= j < i ==> HasTimers(items[j])
    requires Contains(items[i], "ttl_s").Some? && !HasTimers(items[i])
    ensures CheckFrom(items, start) == MissingAt(i)
    decreases i - start
  {
    if start < i {
      assert HasTimers(items[start]);
      CheckFromFindsFirst(items, start + 1, i);
    }
  }

  /**
   * A valid pack for a hostname with no device row: the files are already
   * on disk when the 404 is raised, and the database and the bus are
   * untouched.
   */
  lemma UnknownDeviceAfterWrites(svc: Services, root: Path, s: State, hostname: string, p: Pack)
    requires ValidatePack(svc, p).Ok?
    requires Store(svc, ValidatePack(svc, p).value, s.tree, Join(root, hostname)).1
    requires hostname !in Hostnames(s.db.devices)
    ensures var r := UploadConfigPack(svc, root, s, hostname, p);
            && r.Rejected? && r.error == DeviceNotFound && r.error.Status() == 404
            && r.state.db == s.db && r.state.bus == s.bus
            && forall k :: Present(ValidatePack(svc, p).value, k) ==>
                 IsFileAt(r.state.tree, Child(Join(root, hostname), FileName(k)))
  {
    var v := ValidatePack(svc, p).value;
    UploadIsCommit(svc, root, s, hostname, p);
    UnknownDeviceCommit(svc, v, root, s, hostname, p.actor);
    var r := UploadConfigPack(svc, root, s, hostname, p);
    assert r.error == DeviceNotFound;
    NotFoundStatus();
  }

  lemma NotFoundStatus()
    ensures DeviceNotFound.Status() == 404
  {
  }

  /** The commit half of the above: the files are stored, then the record step refuses. */
  lemma UnknownDeviceCommit(svc: Services, v: Validated, root: Path, s: State, hostname: string, actor: Option<string>)
    requires Layout in v.digests && Rules in v.digests
    requires Store(svc, v, s.tree, Join(root, hostname)).1
    requires hostname !in Hostnames(s.db.devices)
    ensures var r := Commit(svc, v, root, s, hostname, actor);
            && r == Rejected(DeviceNotFound, s.(tree := Store(svc, v, s.tree, Join(root, hostname)).0))
            && forall k :: Present(v, k) ==> IsFileAt(r.state.tree, Child(Join(root, hostname), FileName(k)))
  {
    var dir := Join(root, hostname);
    var stored := Store(svc, v, s.tree, dir);
    assert Record(s.db, hostname, v.digests, actor) == Err(DeviceNotFound);
    assert Commit(svc, v, root, s, hostname, actor) == Finish(s, stored.0, hostname, v.digests, actor);
    forall k | Present(v, k) ensures IsFileAt(stored.0, Child(dir, FileName(k))) {
      assert stored.0[Child(dir, FileName(k))] == File(Content(svc, v, k));
    }
  }

  /** What an accepted upload returns: the response built from the validated pack. */
  lemma AcceptedResult(svc: Services, root: Path, s: State, hostname: string, p: Pack)
    requires UploadConfigPack(svc, root, s, hostname, p).Accepted?
    ensures ValidatePack(svc, p).Ok?
    ensures UploadConfigPack(svc, root, s, hostname, p).result == UploadResult(hostname, Hashes(ValidatePack(svc, p).value.digests))
  {
    assert ValidatePack(svc, p).Ok?;
    UploadIsCommit(svc, root, s, hostname, p);
  }

  /**
   * An accepted upload appends exactly one `config_history` row, for this
   * device and actor, whose digests are the response's hashes; no earlier
   * row and no device row changes.
   */
  lemma AcceptedHistory(svc: Services, root: Path, s: State, hostname: string, p: Pack)
    requires UploadConfigPack(svc, root, s, hostname, p).Accepted?
    ensures var r := UploadConfigPack(svc, root, s, hostname, p);
            var h := r.state.db.history;
            && |h| == |s.db.history| + 1
            && h[..|s.db.history|] == s.db.history
            && r.state.db.devices == s.db.devices
            && h[|h| - 1].device == hostname
            && h[|h| - 1].actor == p.actor
            && h[|h| - 1].note.None?
            && h[|h| - 1].layoutSha == r.result.hashes[Layout]
            && h[|h| - 1].rulesSha == r.result.hashes[Rules]
            && h[|h| - 1].schemaSha == r.result.hashes[Schema]
            && h[|h| - 1].calibrationSha == r.result.hashes[Calibration]
            && h[|h| - 1].boardMapSha == r.result.hashes[BoardMap]
            && h[|h| - 1].themeSha == r.result.hashes[Theme]
  {
    AcceptedResult(svc, root, s, hostname, p);
  }

  /**
   * After an accepted upload the device's birth record exists and its
   * `configs` hold the new layout and rules digests; every config key it
   * had before is still there.
   */
  lemma AcceptedBirth(svc: Services, root: Path, s: State, hostname: string, p: Pack)
    requires UploadConfigPack(svc, root, s, hostname, p).Accepted?
    ensures var r := UploadConfigPack(svc, root, s, hostname, p);
            && hostname in r.state.db.births
            && "configs" in r.state.db.births[hostname]
            && r.state.db.births[hostname]["configs"].Obj?
            && var configs := r.state.db.births[hostname]["configs"].members;
               && "layout" in configs && configs["layout"] == Str(svc.sha256(p.layout))
               && "rules" in configs && configs["rules"] == Str(svc.sha256(p.rules))
               && (hostname in s.db.births ==> ConfigsOf(s.db.births[hostname]).value.Keys <= configs.Keys)
  {
    assert ValidatePack(svc, p).Ok?;
    var v := ValidatePack(svc, p).value;
    UploadIsCommit(svc, root, s, hostname, p);
    assert Raw(p, Layout) == Some(p.layout) && Raw(p, Rules) == Some(p.rules);
    assert v.digests[Layout] == svc.sha256(p.layout) && v.digests[Rules] == svc.sha256(p.rules);
    MergedConfigs(Get(s.db.births, hostname), hostname, v.digests);
  }

  /** The merged birth record holds the new layout and rules digests and keeps every earlier config key. */
  lemma MergedConfigs(existing: Option<Birth>, hostname: string, digests: map<Kind, string>)
    requires Layout in digests && Rules in digests
    requires MergeBirth(existing, hostname, digests).Ok?
    ensures var b := MergeBirth(existing, hostname, digests).value;
            && "configs" in b && b["configs"].Obj?
            && var configs := b["configs"].members;
               && "layout" in configs && configs["layout"] == Str(digests[Layout])
               && "rules" in configs && configs["rules"] == Str(digests[Rules])
               && (existing.Some? ==> ConfigsOf(existing.value).value.Keys <= configs.Keys)
  {
    assert Name(Layout) == "layout" && Name(Rules) == "rules";
  }

  /**
   * The `config.uploaded` event of an accepted upload reaches every
   * subscriber with room, carrying the response's hashes.
   */
  lemma AcceptedEvent(svc: Services, root: Path, s: State, hostname: string, p: Pack)
    requires UploadConfigPack(svc, root, s, hostname, p).Accepted?
    ensures var r := UploadConfigPack(svc, root, s, hostname, p);
            var e := Events.Event(UploadedEvent, EventPayload(r.result));
            && r.state.bus.queues.Keys == s.bus.queues.Keys
            && forall h :: h in s.bus.queues && !Events.IsFull(s.bus.queues[h]) ==>
                 r.state.bus.queues[h].items == s.bus.queues[h].items + [e]
  {
    AcceptedResult(svc, root, s, hostname, p);
  }

  /**
   * When the device directory can be created and no file name is taken by
   * a directory, every file is written.
   */
  lemma StoreSucceeds(svc: Services, v: Validated, t: Tree, dir: Path)
    requires MakeDirs(t, dir).Some?
    requires forall k :: !IsDirAt(t, Child(dir, FileName(k)))
    ensures Store(svc, v, t, dir).1
  {
    var t1 := MakeDirs(t, dir).value;
    var files := Files(svc, v);
    WriteFilesSpec(t1, dir, files);
    forall i | 0 <= i < |files| ensures CanWrite(t1, Child(dir, files[i].0)) {
      assert exists k :: Present(v, k) && files[i] == (FileName(k), Content(svc, v, k));
      var k :| Present(v, k) && files[i] == (FileName(k), Content(svc, v, k));
      ChildWritable(t, dir, FileName(k));
    }
  }

  /** After `mkdir`, a name in the new directory that was not a directory can be written. */
  lemma ChildWritable(t: Tree, dir: Path, name: string)
    requires MakeDirs(t, dir).Some?
    requires !IsDirAt(t, Child(dir, name))
    ensures CanWrite(MakeDirs(t, dir).value, Child(dir, name))
  {
    var t1 := MakeDirs(t, dir).value;
    var c := Child(dir, name);
    if |dir.parts| >= 1 {
      assert Prefix(dir, |dir.parts|) == dir;
      assert Parent(c) == dir;
    }
    assert !IsAncestorOrSelf(c, dir);
  }

  /**
   * A valid pack for a known device is accepted when its birth record, if
   * it has one, holds `configs` that `dict` accepts, the device directory
   * can be created and none of the file names is taken by a directory.
   */
  lemma UploadSucceeds(svc: Services, root: Path, s: State, hostname: string, p: Pack)
    requires forall stage :: 0 <= stage < ValidationStages ==> StagePasses(svc, p, stage)
    requires MakeDirs(s.tree, Join(root, hostname)).Some?
    requires forall k :: !IsDirAt(s.tree, Child(Join(root, hostname), FileName(k)))
    requires hostname in Hostnames(s.db.devices) && Mergeable(s.db.births, hostname)
    ensures UploadConfigPack(svc, root, s, hostname, p).Accepted?
  {
    assert ValidatePack(svc, p).Ok?;
    ValidUploadSucceeds(svc, root, s, hostname, p);
  }

  lemma ValidUploadSucceeds(svc: Services, root: Path, s: State, hostname: string, p: Pack)
    requires ValidatePack(svc, p).Ok?
    requires MakeDirs(s.tree, Join(root, hostname)).Some?
    requires forall k :: !IsDirAt(s.tree, Child(Join(root, hostname), FileName(k)))
    requires hostname in Hostnames(s.db.devices) && Mergeable(s.db.births, hostname)
    ensures UploadConfigPack(svc, root, s, hostname, p).Accepted?
  {
    var v := ValidatePack(svc, p).value;
    UploadIsCommit(svc, root, s, hostname, p);
    StoreSucceeds(svc, v, s.tree, Join(root, hostname));
    CommitSucceeds(svc, v, root, s, hostname, p.actor);
  }

  /** A pack that passes validation is committed as validated. */
  lemma UploadIsCommit(svc: Services, root: Path, s: State, hostname: string, p: Pack)
    requires ValidatePack(svc, p).Ok?
    ensures var v := ValidatePack(svc, p).value;
            && Layout in v.digests && Rules in v.digests
            && UploadConfigPack(svc, root, s, hostname, p) == Commit(svc, v, root, s, hostname, p.actor)
  {
    assert Layout in Uploaded(p) && Rules in Uploaded(p);
  }

  /** Once the files are stored, a known device whose birth record, if any, can be merged is recorded. */
  lemma CommitSucceeds(svc: Services, v: Validated, root: Path, s: State, hostname: string, actor: Option<string>)
    requires Layout in v.digests && Rules in v.digests
    requires Store(svc, v, s.tree, Join(root, hostname)).1
    requires hostname in Hostnames(s.db.devices) && Mergeable(s.db.births, hostname)
    ensures Commit(svc, v, root, s, hostname, actor).Accepted?
  {
    assert Record(s.db, hostname, v.digests, actor).Ok?;
  }

  /** Recording the same digests twice leaves the birth record as after the first time. */
  lemma MergeIdempotent(existing: Option<Birth>, hostname: string, digests: map<Kind, string>)
    requires Layout in digests && Rules in digests
    requires MergeBirth(existing, hostname, digests).Ok?
    ensures var once := MergeBirth(existing, hostname, digests).value;
            MergeBirth(Some(once), hostname, digests) == Ok(once)
  {
    var once := MergeBirth(existing, hostname, digests).value;
    var base := existing.GetOr(FreshBirth(hostname));
    var configs := ConfigsOf(base).value;
    var u := ConfigUpdates(digests);
    assert once == base["configs" := Obj(configs + u)];
    assert ConfigsOf(once) == Some(configs + u);
    UpdateTwice(configs, u);
    StoreSame(once, "configs", Obj(configs + u));
  }

  /** Applying the same update twice is applying it once. */
  lemma UpdateTwice<K, V>(m: map<K, V>, u: map<K, V>)
    ensures (m + u) + u == m + u
  {
  }

  /** Storing the value a key already holds changes nothing. */
  lemma StoreSame<K, V>(m: map<K, V>, key: K, v: V)
    requires key in m && m[key] == v
    ensures m[key := v] == m
  {
  }
}

=== FILE: wrappers.dfy ===
/** Optional values and results, standing in for Python's `X | None` and for raised exceptions. */
module Wrappers {

  datatype Option<+T> = None | Some(value: T) {

    /** The wrapped value, or `default` when there is none (Python's `x if x is not None else default`). */
    function GetOr(default: T): T {
      match this
      case Some(v) => v
      case None => default
    }
  }

  /** A value, or the error that stopped its computation. */
  datatype Result<+T, +E> = Ok(value: T) | Err(error: E) {

    predicate IsFailure() {
      Err?
    }

    function PropagateFailure<U>(): Result<U, E>
      requires Err?
    {
      Err(error)
    }

    function Extract(): T
      requires Ok?
    {
      value
    }
  }

  /** `d.get(key)`: the value stored under `key`, or `None` when the key is absent. */
  function Get<K, V>(m: map<K, V>, key: K): (r: Option<V>)
    ensures r.Some? <==> key in m
    ensures r.Some? ==> r.value == m[key]
  {
    if key in m then Some(m[key]) else None
  }
}
